=== FILE: README.md ===
# User access management: a Dafny model of the client's decision rules

The system is a React front end through which employees request access to
software, managers approve or reject those requests, and admins keep the
software catalogue. Almost all of it is presentation. This project models
the few pieces that decide something:

- the route guard (`ProtectedRoute`): waiting, sending a visitor away, or
  letting them in by role;
- the session store (`AuthContext`): restoring a session from a stored token,
  logging in, logging out;
- the route table of `App` and the side menu of `MainLayout`, checked
  against the guard: which pages a role's menu and landing path lead to;
- the manager's request pages: the case-insensitive status filter, the local
  update that records a decision on one request id, the optional-comment
  rule, the decision controls and which requests offer them, reason
  truncation, the
  dashboard's pending list and previews;
- the two forms: the software catalogue form (schema and access-level
  checkboxes) and the employee's new-request form (schema and access types).

The page modules each follow one source file. `Text`, `Requests` and
`Navigation` hold definitions shared across files:

| module | file |
|---|---|
| `Text` | string helpers: `toLowerCase`, `trim`, JavaScript truthiness |
| `Guard` | `src/components/common/ProtectedRoute.jsx` |
| `Session` | `src/contexts/AuthContext.jsx` |
| `Routes` | `src/App.jsx` |
| `Layout` | `src/layouts/MainLayout.jsx` |
| `Navigation` | guard, route table, login landing and menu together |
| `Requests` | the request record and the list operations shared by the manager pages |
| `RequestsPage` | `src/pages/manager/ManagerRequestsPage.jsx` |
| `RequestDetail` | `src/pages/manager/ManagerRequestDetailPage.jsx`, with the trigger and confirm of `src/components/manager/RequestActionDialog.jsx` |
| `Dashboard` | `src/pages/manager/ManagerDashboard.jsx` |
| `RequestList` | `src/components/manager/RequestList.jsx` |
| `SoftwareForm` | `src/components/admin/AddSoftwareForm.jsx` |
| `NewRequest` | `src/pages/employee/NewRequestPage.jsx` |

The effects the components trigger are written as explicit state:
- local storage is the `storedToken` field;
- `navigate` is the `navigatedTo` or `leaveTo` field;
- each server call is a parameter carrying its outcome;
- `jwtDecode` is an abstract partial function `Decoder`;
- the clock is the `now` parameter.

## Model

| member | source | states |
|---|---|---|
| Text.Lower | src/components/common/ProtectedRoute.jsx:20 | the lower-cased string has the input's length, lower-cases each character in place, and holds no upper-case ASCII letter |
| Text.LowerIdempotent | src/components/common/ProtectedRoute.jsx:20 | lower-casing an already lower-cased role changes nothing |
| Text.Trim | src/pages/manager/ManagerRequestsPage.jsx:59 | the trimmed text is a run of the input with only whitespace before and after it, and it neither starts nor ends with whitespace |
| Text.DropBothSpan | src/pages/manager/ManagerRequestsPage.jsx:59 | cutting a character class from the front and then the back leaves a run of the input framed by characters of that class |
| Text.DropBothEmptyIff | src/pages/manager/ManagerRequestsPage.jsx:59 | cutting a character class from both ends leaves nothing exactly when every character is in the class |
| Text.TrimEmptyIffWhitespace | src/pages/manager/ManagerRequestsPage.jsx:59 | `comments.trim()` is falsy exactly when the comment consists of whitespace only |
| Guard.SomeRoleMatches | src/components/common/ProtectedRoute.jsx:19-21 | true exactly when some allowed role equals the user's role ignoring case |
| Guard.Decide | src/components/common/ProtectedRoute.jsx:4-35 | loading gives Loading whatever the user; no user gives Redirect(redirectPath); a user is let in exactly when the list is empty or some entry equals the role up to case; a refused admin, manager or employee (any case) goes to `/admin/software`, `/manager/dashboard` or `/employee/dashboard`, any other role to `/` |
| Guard.RoleFallback | src/components/common/ProtectedRoute.jsx:23-31 | a refused `admin`, `manager` or `employee` (any case) is sent to a page under `/<role>/`; any other role to `/` |
| Guard.SingleRoleGroup | src/components/common/ProtectedRoute.jsx:18-21 | a one-role list admits exactly the roles equal to it up to case |
| Guard.DecideOneRole | src/components/common/ProtectedRoute.jsx:18-33 | at a one-role group with a lower-case role a signed-in user is let in or sent to the role's fallback, nothing else |
| Guard.SignedInNeverSentToLogin | src/components/common/ProtectedRoute.jsx:14-32 | with the default `redirectPath` a signed-in user is never redirected to `/login` |
| Guard.DecisionIgnoresRoleCase | src/components/common/ProtectedRoute.jsx:18-32 | two users whose roles differ only in case get the same decision |
| Session.Logout | src/contexts/AuthContext.jsx:85-90 | the token and the user are gone, the store has navigated to `/login`, loading is untouched |
| Session.LogoutIdempotent | src/contexts/AuthContext.jsx:85-90 | logging out twice leaves the same state as once |
| Session.Restore | src/contexts/AuthContext.jsx:17-45 | loading ends in every branch; no (or empty) token leaves everything else as it was; an undecodable token or `exp < now` clears token and user and goes to `/login`; otherwise the user is exactly {id, username, role} of the claims and other claims are dropped; a user results exactly when the token decodes and is not expired |
| Session.LandingPath | src/contexts/AuthContext.jsx:64-71 | an exact `admin` lands on `/admin/dashboard`, an exact `manager` on `/manager/dashboard`, every other role (`Admin` included) on `/employee/dashboard` |
| Session.Login | src/contexts/AuthContext.jsx:47-83 | a refused call stores nothing and returns the server message or `Login failed`; an issued token is stored before decoding, so an undecodable one stays stored while the result is a failure; success sets the user from the claims and navigates by exact role; success is reported exactly when a token was issued and decoded |
| Session.ReloadAfterLoginRestoresUser | src/contexts/AuthContext.jsx:17-83 | reloading after a successful login restores the same user while the token is unexpired |
| Session.ReloadAfterLogoutIsSignedOut | src/contexts/AuthContext.jsx:17-90 | reloading after a logout starts signed out |
| Routes.FindExact | src/App.jsx:29-63 | the first route whose literal path is the visited path, or none: no earlier route has that path |
| Routes.Resolve | src/App.jsx:29-63 | the chosen route matches the path; a parameter route is chosen only when no literal route matches; no route is chosen only when none matches |
| Routes.Visit | src/App.jsx:29-63 | an unmatched path is not found; a public route renders, `/` forwards, and a guarded route waits while loading, sends an anonymous visitor to `/login`, and renders for a signed-in user exactly when the guard admits the role, sending a refused one to the role's fallback |
| Routes.RouteNames | src/App.jsx:31-60 | each named position of the table holds the literal route of that name |
| Routes.PublicEntryPoints | src/App.jsx:31-33 | `/` forwards to `/login`, and `/login` and `/register` render whatever the store holds |
| Routes.VisitLiteral | src/App.jsx:31-62 | a literal path of the table resolves to its own route, so public routes render and `/` forwards |
| Routes.PatternsDistinct | src/App.jsx:31-62 | no two routes share a path pattern |
| Routes.ResolvesToOwnRoute | src/App.jsx:31-62 | each literal path of the table resolves to its own route |
| Routes.ForwardOnlyAtRoot | src/App.jsx:31-33 | the only forwarding route is `/`, to `/login` |
| Routes.RedirectTarget | src/App.jsx:31-62 | a signed-in visit is redirected only from `/` to `/login` or by a guard to the role's fallback |
| Routes.EmployeeGroup | src/App.jsx:36-43 | the routes under `/employee/` are exactly those guarded by `['employee']` |
| Routes.ManagerGroup | src/App.jsx:46-52 | the routes under `/manager/` are exactly those guarded by `['manager']` |
| Routes.AdminGroup | src/App.jsx:55-62 | the routes under `/admin/` are exactly those guarded by `['admin']` |
| Routes.GuardedRoutesSitUnderTheirRole | src/App.jsx:36-62 | every guarded route admits exactly one role and lies under `/<role>/` |
| Layout.NavLinks | src/layouts/MainLayout.jsx:15-37 | no user gives no links; exactly `admin` the four admin links, exactly `manager` the two manager links, every other role (`Admin`, `MANAGER` included) the three employee links |
| Layout.AtMostOneActive | src/layouts/MainLayout.jsx:76 | whatever the path, at most one menu entry is highlighted |
| Layout.HandleLogout | src/layouts/MainLayout.jsx:47-50 | the logout button leaves the same state as `logout` alone: its second navigation to `/login` adds nothing |
| Layout.MenuEmptyAfterLogout | src/layouts/MainLayout.jsx:15-50 | after the logout button the menu is empty |
| Navigation.VisitOwnRoute | src/App.jsx:31-62 | a literal page seen by a signed-in user is what its access rule decides: public pages render, `/` forwards, guarded pages admit exactly the roles the guard allows and send others to the role's fallback |
| Navigation.GroupPage | src/App.jsx:36-62 | a page of a one-role group renders exactly for roles equal to it up to case and otherwise redirects to the role's fallback |
| Navigation.FallbackAdmits | src/components/common/ProtectedRoute.jsx:23-33 | the fallback path of each known role resolves to a route guarded by exactly that role, and it admits the user |
| Navigation.HomeLeadsToLogin | src/App.jsx:31-33 | `/` forwards a signed-in user to `/login`, which renders |
| Navigation.RefusalsSettle | src/components/common/ProtectedRoute.jsx:23-33 | no refusal leads to a second refusal: the target renders, or it is `/`, whose forward to `/login` renders |
| Navigation.LandingAdmitsIff | src/contexts/AuthContext.jsx:64-71 | the login landing page admits the user exactly when the role is `admin` or `manager` verbatim or `employee` in any case |
| Navigation.LandingInOwnGroup | src/contexts/AuthContext.jsx:64-71 | the landing path of the exact role `admin`, `manager` or `employee` resolves to a route guarded by exactly that role |
| Navigation.CapitalisedAdminLanding | src/contexts/AuthContext.jsx:64-71 | a role claim `Admin` lands on the employee dashboard, which redirects to `/admin/software`, which renders |
| Navigation.AdminLandingDiffersFromFallback | src/contexts/AuthContext.jsx:65-66 | an admin logs in to `/admin/dashboard` but is refused elsewhere to `/admin/software`; both pages admit admins |
| Navigation.EmployeeRefusedByManagerPages | src/App.jsx:46-52 | an employee at any manager page is redirected to `/employee/dashboard` |
| Navigation.MenuAt | src/layouts/MainLayout.jsx:15-37 | a menu laid out on literal pages of one group lies in that group |
| Navigation.MenusFollowGroups | src/layouts/MainLayout.jsx:18-36 | the admin, manager and employee menus list only pages guarded by exactly that role |
| Navigation.MenuAtOpensIff | src/layouts/MainLayout.jsx:15-37 | a menu on one group's pages opens entirely for that role up to case and is refused entirely to every other role |
| Navigation.AdminMenuOpens | src/layouts/MainLayout.jsx:18-24 | every admin menu entry renders for an admin |
| Navigation.ManagerMenuOpens | src/layouts/MainLayout.jsx:25-29 | every manager menu entry renders for a manager |
| Navigation.EmployeeMenu | src/layouts/MainLayout.jsx:30-36 | the employee menu opens for roles that lower-case to `employee` and is refused to every other role that gets it |
| Navigation.MenuOpensIff | src/layouts/MainLayout.jsx:15-37 | the whole menu opens exactly for `admin`, `manager` verbatim or `employee` in any case; for every other role each entry is refused |
| Requests.WithStatus | src/pages/manager/ManagerRequestsPage.jsx:85-88 | the kept requests are exactly those whose status equals the filter ignoring case, and no more than the input |
| Requests.WithStatusAppend | src/pages/manager/ManagerRequestsPage.jsx:85-88 | filtering distributes over concatenation, so the original order is kept |
| Requests.WithStatusKeepsMatching | src/pages/manager/ManagerRequestsPage.jsx:85-88 | a list whose every status matches is kept whole |
| Requests.Filtered | src/pages/manager/ManagerRequestsPage.jsx:85-88 | `all` returns the list unchanged; any other filter keeps exactly the requests whose status equals it ignoring case |
| Requests.FilteredIdempotent | src/pages/manager/ManagerRequestsPage.jsx:85-88 | filtering twice by the same value is filtering once |
| Requests.ApplyDecision | src/pages/manager/ManagerRequestsPage.jsx:62-68 | length is kept; requests with another id are unchanged; a request with the id gets the action as status and `Current User` as actor, every other field kept |
| Requests.ApplyDecisionAbsentId | src/pages/manager/ManagerRequestsPage.jsx:62-68 | an id no request carries leaves the list unchanged |
| Requests.ApplyDecisionIdempotent | src/pages/manager/ManagerRequestsPage.jsx:62-68 | recording the same decision twice is recording it once |
| Requests.DecisionLeavesPending | src/pages/manager/ManagerRequestsPage.jsx:62-68 | after a non-pending decision no request with that id is pending, and the pending list does not grow |
| Requests.Truncate | src/pages/manager/ManagerRequestsPage.jsx:189-190 | a missing reason shows nothing; a reason within the limit shows whole; a longer one shows its first `limit` characters and `...` |
| RequestsPage.InitialFilter | src/pages/manager/ManagerRequestsPage.jsx:16 | a non-empty `filter` query value is used; a missing or empty one gives `all` |
| RequestsPage.CommentsPayload | src/pages/manager/ManagerRequestsPage.jsx:59 | the comment is sent untrimmed, and left out exactly when it is whitespace only |
| RequestsPage.RowActions | src/pages/manager/ManagerRequestsPage.jsx:199-219 | a row offers decisions exactly when its status is exactly `Pending`, and only `Approved` and `Rejected` |
| RequestsPage.HandleAction | src/pages/manager/ManagerRequestsPage.jsx:45-49 | a row button selects that row and that action and opens the dialog, leaving the list and the comment alone |
| RequestsPage.ConfirmAction | src/pages/manager/ManagerRequestsPage.jsx:51-83 | without a selected row or action nothing happens; otherwise the payload is sent; success records the decision on the id, sets `Request #<id> has been <action>.`, closes the dialog and clears the comment; failure leaves the list, sets `Failed to <action> request. Please try again.` and keeps the comment; either way the selected row and the chosen action are kept |
| RequestsPage.ConfirmShrinksPendingView | src/pages/manager/ManagerRequestsPage.jsx:51-88 | a confirmed non-pending decision never grows the table shown under the filter `pending`, and once accepted the decided request leaves it |
| RequestsPage.DecidedRowsLoseActions | src/pages/manager/ManagerRequestsPage.jsx:45-83 | after a decision chosen from a row's own buttons succeeds, no row with that id offers decisions again |
| RequestsPage.EmptyText | src/pages/manager/ManagerRequestsPage.jsx:167 | the empty message names the filter, or nothing for `all`, which leaves two spaces |
| RequestsPage.RowOf | src/pages/manager/ManagerRequestsPage.jsx:186-224 | the reason is the shortened form with limit 50 (first 50 characters and `...` when longer), at most 53 characters; the row has the Approve and Reject buttons exactly when its status is exactly `Pending`, and otherwise shows "Updated by" with the actor's username, or `Unknown` when it is missing or empty |
| RequestsPage.Render | src/pages/manager/ManagerRequestsPage.jsx:111-226 | an error replaces the page; an empty filtered list shows the empty message; otherwise one row per filtered request, in order |
| RequestDetail.OneSectionShown | src/pages/manager/ManagerRequestDetailPage.jsx:176-190 | exactly one of the decision footer and the decision block is shown |
| RequestDetail.FooterActions | src/pages/manager/ManagerRequestDetailPage.jsx:190-220 | decisions are offered exactly while the status is exactly `Pending`, and only `Approved` and `Rejected` |
| RequestDetail.OpenDialog | src/pages/manager/ManagerRequestDetailPage.jsx:66-69 | a footer button records its action and opens the dialog, leaving the request alone |
| RequestDetail.UpdateStatus | src/pages/manager/ManagerRequestDetailPage.jsx:39-64 | the comment is sent untrimmed or left out when blank; success sets the status, replaces the comments only with a non-blank comment, keeps every other field, sets `Request successfully <status>.`, closes the dialog and schedules `/manager/requests`; failure keeps the request and sets `Failed to <status> request. Please try again.`; either way the chosen action is kept |
| RequestDetail.DecidedRequestIsLocked | src/pages/manager/ManagerRequestDetailPage.jsx:48-52 | after a footer decision succeeds the footer is gone, so the footer offers no decision again |
| RequestDetail.TriggerDialog | src/components/manager/RequestActionDialog.jsx:28-36 | the dialog's trigger opens the dialog on the last chosen action, whatever the request's status |
| RequestDetail.ConfirmDialog | src/components/manager/RequestActionDialog.jsx:16-18 | confirming sends the chosen action for the page's request id with the dialog's comment, untrimmed or left out when blank, without any status test; success sets that status |
| RequestDetail.DecidedRequestCanBeSentAgain | src/pages/manager/ManagerRequestDetailPage.jsx:223-230 | after a footer decision succeeds the footer is gone, yet the trigger and confirm send the same decision for the same request again |
| RequestList.StatusClass | src/components/manager/RequestList.jsx:5-16 | a class is given exactly for `pending`, `approved` and `rejected` in any case; anything else or a missing status gets `''` |
| RequestList.StatusClassIgnoresCase | src/components/manager/RequestList.jsx:5-16 | the class depends on the status only through its lower-cased form |
| RequestList.StatusClassesDistinct | src/components/manager/RequestList.jsx:7-12 | the three statuses get three different classes |
| RequestList.CardOf | src/components/manager/RequestList.jsx:31-50 | the reason is the shortened form with limit 60: whole when at most 60 characters, otherwise its first 60 characters followed by `...`; "Updated by" appears exactly when the status is not exactly `Pending` and an actor is present, and shows that actor's username |
| RequestList.View | src/components/manager/RequestList.jsx:22-30 | an empty list shows the given message or `No requests found.`; a non-empty list shows one card per request, in order |
| Dashboard.PendingOf | src/pages/manager/ManagerDashboard.jsx:26 | the pending list is exactly the requests whose status lower-cases to `pending` |
| Dashboard.Preview | src/pages/manager/ManagerDashboard.jsx:95 | the first min(3, n) elements |
| Dashboard.PreviewOrEmpty | src/pages/manager/ManagerDashboard.jsx:103 | the first at most three elements of a present list, or nothing |
| Dashboard.Load | src/pages/manager/ManagerDashboard.jsx:17-111 | a failed call shows the load error; otherwise the Pending count is the pending list's length, the pending section appears exactly when that list is non-empty and previews its first three, the Total, Approved and Rejected cards show the server's counts, and the decided previews come from the server's lists |
| Dashboard.PendingLinkShowsSameList | src/pages/manager/ManagerDashboard.jsx:90 | between the two components: the request table, opened with the link's `?filter=pending`, lists exactly the dashboard's pending requests |
| SoftwareForm.Validate | src/components/admin/AddSoftwareForm.jsx:12-16 | each field reports its message exactly when it is empty |
| SoftwareForm.ValidIff | src/components/admin/AddSoftwareForm.jsx:12-16 | the form is valid exactly when name and description are non-empty and at least one level is checked |
| SoftwareForm.DefaultsNeedText | src/components/admin/AddSoftwareForm.jsx:24-28 | the defaults fail on the two empty text fields only |
| SoftwareForm.IndexOf | src/components/admin/AddSoftwareForm.jsx:112 | the first position of the value, or -1 exactly when it is absent |
| SoftwareForm.Toggle | src/components/admin/AddSoftwareForm.jsx:107-118 | checking appends the value; unchecking an absent value changes nothing; unchecking a present one removes its first occurrence only, keeping the order of the rest |
| SoftwareForm.CheckThenUncheck | src/components/admin/AddSoftwareForm.jsx:107-118 | checking an absent value and unchecking it restores the list |
| SoftwareForm.ClickKeepsLevelsClean | src/components/admin/AddSoftwareForm.jsx:31-35 | clicks on the offered boxes keep the list duplicate-free and within Read, Write, Admin |
| SoftwareForm.UncheckRemoves | src/components/admin/AddSoftwareForm.jsx:111-115 | unchecking a value of a duplicate-free list leaves no copy of it |
| SoftwareForm.ClickTwice | src/components/admin/AddSoftwareForm.jsx:106-118 | two clicks restore an unchecked value's list; a checked value is removed and appended again, so the same levels remain with it at the end |
| SoftwareForm.Submit | src/components/admin/AddSoftwareForm.jsx:37-52 | an invalid draft is blocked with its errors; a failed call shows the server message when present and the fixed fallback otherwise |
| NewRequest.Validate | src/pages/employee/NewRequestPage.jsx:38-42 | each required field reports when empty; a reason of 1 to 9 characters reports the minimum length; 10 or more characters pass |
| NewRequest.ValidIff | src/pages/employee/NewRequestPage.jsx:38-42 | the form is valid exactly when a software and an access type are chosen and the reason has at least 10 characters |
| NewRequest.InitialInvalid | src/pages/employee/NewRequestPage.jsx:33-42 | the initial all-empty values fail on every field |
| NewRequest.AccessTypesDifferFromCatalogueInCase | src/pages/employee/NewRequestPage.jsx:108-144 | the radio values READ, WRITE, ADMIN equal the catalogue's levels ignoring case but never exactly |
| NewRequest.Submit | src/pages/employee/NewRequestPage.jsx:43-53 | an invalid draft is never sent; success goes to `/employee/requests`; failure shows the fixed error and re-enables the button |

## Where the code departs from the intended behaviour

The model follows the code in each case:

- A token is meant to be dropped once its expiry is reached. The code drops
  it only when `exp < now` (`src/contexts/AuthContext.jsx:28`).
  A token expiring exactly now is kept. A token without an `exp` claim is
  kept as well, because `undefined < now` is false.
- An admin has two home pages. The code sends an exact `admin` role to
  `/admin/dashboard` after login (`src/contexts/AuthContext.jsx:65-66`).
  The guard sends a refused admin to `/admin/software`
  (`src/components/common/ProtectedRoute.jsx:25-26`).
  `Navigation.AdminLandingDiffersFromFallback` states both.
- No status transition is checked: nothing tests the actor's role or
  refuses a request that is already decided. `Requests.ApplyDecision`
  records any action on any matching id. On the list page, the row buttons
  appear on `Pending` rows only. On the detail page, the footer buttons
  appear on `Pending` requests only, but the next bullet shows that a
  decided request can still be decided again there.
- The detail page renders `RequestActionDialog` on every loaded request
  (`src/pages/manager/ManagerRequestDetailPage.jsx:223-230`). That dialog
  draws its own trigger button outside the dialog body
  (`src/components/manager/RequestActionDialog.jsx:29-36`), labelled from
  the last chosen action. The trigger opens the dialog whatever the status.
  Its confirm button sends that action for the page's request id, with no
  status test (`src/components/manager/RequestActionDialog.jsx:16-18`,
  `:68-74`). After a footer Approve succeeds, the trigger still reads
  "Approve", and confirming sends a second update.
  `RequestDetail.DecidedRequestCanBeSentAgain` states this.
- The detail page's footer has a comment box
  (`src/pages/manager/ManagerRequestDetailPage.jsx:17`, `:196-201`), but its
  text is never sent. The update carries the dialog's own, separate comment
  box (`src/components/manager/RequestActionDialog.jsx:14,17`).
  `RequestDetail.UpdateStatus` takes that dialog text as `comments`.
- The list page records the actor as the placeholder `Current User`. The
  detail page does not change the actor at all.
- There is no client-side count of requests by status. The dashboard counts
  come from the server, except the Pending count, which is the length of the
  client's pending list.
- Roles are compared in two ways. The guard ignores case. The menu and the
  login landing rule compare exactly, so `Admin` gets the employee menu and
  lands on the employee dashboard (`Navigation.CapitalisedAdminLanding`,
  `Navigation.MenuOpensIff`).
- `src/App.jsx:17-23` defines placeholder components, and
  `src/App.jsx:41,48-50,57-58,60` mounts them. They sit on
  `/employee/requests/:id`, the three manager routes, and the admin
  dashboard, requests and users routes. So the app as written never renders
  `ManagerDashboard.jsx`, `ManagerRequestsPage.jsx` or
  `ManagerRequestDetailPage.jsx`. `RequestsPage`, `RequestDetail` and
  `Dashboard` model those components as written, on their own. The `Routes`
  and `Navigation` modules only say whether a route renders its page or
  redirects, which holds for a placeholder too.
  `Dashboard.PendingLinkShowsSameList` is a statement about the two
  components. In the app as written, the link leads to a placeholder.

## Left out

- The HTTP service wrappers (`src/services/*.js`): each is one call to an
  unseen client. Every call appears as a parameter carrying its outcome.
- The toast component, the employee dashboard and request pages, the admin
  software page, the login page and the status card: display wiring with no
  decision of their own. Of the action dialog, the model keeps the trigger
  and the confirm button (`RequestDetail.TriggerDialog`,
  `RequestDetail.ConfirmDialog`). It leaves out the dialog's labels and the
  Cancel button, which only closes the dialog.
- RequestDetail.ConfirmDialog: a confirm before any action was chosen gives
  `None`. The code would send an update with a `null` status and then throw
  on `status.toLowerCase()`. The footer's comment box, which is never sent,
  is not part of the state.
- JSON Web Token internals (base64, signature): `jwtDecode` is the abstract
  `Decoder`. `Date.now() / 1000` is the `now` parameter.
- Asynchrony: React state and effect scheduling, the intermediate
  `loading`/`submitting` renders, and the timers that clear a success
  message or navigate later. A scheduled navigation is recorded in
  `leaveTo`.
- Date formatting, styling, and the badge and card classes other than the
  status classifier.
- Text.Lower: lower-cases ASCII letters only, while `toLowerCase` maps all of
  Unicode. The roles and statuses the system uses are ASCII.
- Text.String: a `char` is a Unicode code point. JavaScript's `length`,
  `slice` and Yup's `min` count UTF-16 code units. The two agree on text in
  the Basic Multilingual Plane. A character outside it, such as an emoji,
  counts once in the model and twice in the source.
- Requests.Truncate: the limit counts code points, not UTF-16 units. A
  reason of 30 emoji has length 60 in the source and is cut at 50 there. The
  model keeps it whole.
- RequestsPage.RowOf: the 50-character cut and the 53-character bound count
  code points, not UTF-16 units, as for `Requests.Truncate`.
- RequestList.CardOf: the 60-character cut and the 63-character bound count
  code points, not UTF-16 units, as for `Requests.Truncate`.
- NewRequest.Validate: the 10-character minimum counts code points. Yup
  counts UTF-16 units, so a reason of five emoji passes in the source. The
  model rejects it.
- NewRequest.ValidIff: the same code-point count as `NewRequest.Validate`.
- Routes.Resolve: models only literal paths and one trailing `:id` segment,
  compared case-sensitively, without trailing slashes or URL decoding. The
  router matches case-insensitively and accepts a trailing slash, so a path
  such as `/Admin/Software` or `/manager/requests/` renders a page in the
  program but is `NotFound` here.
- Requests.Filtered: assumes every request has a status. The code would
  throw on a request whose `status` is missing.
- Session.Restore: assumes the decoded claims carry `id`, `username` and
  `role` strings. A token without a `role` claim would make the guard throw.
- Dashboard.Load: treats the two fetches as one outcome. The stats of a
  first call that succeeded are not shown when the second call fails, which
  matches the error screen the code shows.
- Request ids are kept in their printed form. The code compares them with
  `===`.

=== FILE: dashboard.dfy ===
/** The manager's dashboard, `src/pages/manager/ManagerDashboard.jsx`: the
    pending list computed on the client, the counts the server computed, and
    the three short previews. */
module Dashboard {
  import opened Wrappers
  import opened Text
  import opened Requests
  import RequestsPage

  /** The server's summary of the requests this manager processed. The
      counts are passed through unchanged. */
  datatype Stats = Stats(total: int, approvedCount: int, rejectedCount: int,
                         approved: Option<seq<Request>>, rejected: Option<seq<Request>>)

  /** What the dashboard shows: an error panel, or the four cards, the
      pending preview (absent when the section is hidden) and the two
      decided previews. */
  datatype View =
    | Failed(message: String)
    | Ready(pendingCount: nat, processed: int, approvedCount: int, rejectedCount: int,
            pendingPreview: Option<seq<Request>>,
            approvedPreview: seq<Request>, rejectedPreview: seq<Request>)

  const LoadError: String := "Failed to load dashboard data. Please try again later."

  /** The longest preview. */
  const PreviewSize: nat := 3

  /** The pending requests: status `pending` in any case, in order. */
  function PendingOf(all: seq<Request>): (out: seq<Request>)
    ensures forall r :: r in out <==> r in all && Lower(r.status) == "pending"
    ensures |out| <= |all|
  {
    LowerOfLowerCase("pending");
    WithStatus(all, "pending")
  }

  /** `xs.slice(0, 3)`. */
  function Preview(xs: seq<Request>): (out: seq<Request>)
    ensures |out| == if |xs| < PreviewSize then |xs| else PreviewSize
    ensures forall i :: 0 <= i < |out| ==> out[i] == xs[i]
  {
    if |xs| <= PreviewSize then xs else xs[..PreviewSize]
  }

  /** `list?.slice(0, 3) || []`. */
  function PreviewOrEmpty(xs: Option<seq<Request>>): (out: seq<Request>)
    ensures xs.None? ==> out == []
    ensures xs.Some? ==> out == Preview(xs.value)
  {
    match xs
    case None => []
    case Some(l) => Preview(l)
  }

  /** `fetchData` and the render: `processed` and `all` are the two
      answers, absent when the call failed. */
  function Load(processed: Option<Stats>, all: Option<seq<Request>>): (v: View)
    ensures processed.None? || all.None? ==> v == Failed("Failed to load dashboard data. Please try again later.")
    ensures processed.Some? && all.Some? ==>
      v.Ready? &&
      v.pendingCount == |PendingOf(all.value)| &&
      (v.pendingPreview.Some? <==> PendingOf(all.value) != []) &&
      (v.pendingPreview.Some? ==> v.pendingPreview.value == Preview(PendingOf(all.value))) &&
      v.approvedPreview == PreviewOrEmpty(processed.value.approved) &&
      v.rejectedPreview == PreviewOrEmpty(processed.value.rejected) &&
      v.processed == processed.value.total &&
      v.approvedCount == processed.value.approvedCount &&
      v.rejectedCount == processed.value.rejectedCount
  {
    if processed.None? || all.None? then Failed(LoadError)
    else
      var stats := processed.value;
      var pending := PendingOf(all.value);
      Ready(|pending|, stats.total, stats.approvedCount, stats.rejectedCount,
            if |pending| > 0 then Some(Preview(pending)) else None,
            PreviewOrEmpty(stats.approved), PreviewOrEmpty(stats.rejected))
  }

  /** Between the two components: the request table, given the query
      `?filter=pending` that the "View All Pending" link carries, lists
      exactly the dashboard's pending requests. (`src/App.jsx` mounts a
      placeholder on the link's target route, so the app as written does
      not reach this table.) */
  lemma PendingLinkShowsSameList(all: seq<Request>)
    ensures Filtered(all, RequestsPage.InitialFilter(Some("pending"))) == PendingOf(all)
  {
  }
}

=== FILE: guard.dfy ===
/** The route guard of `src/components/common/ProtectedRoute.jsx`: a pure
    decision over the store's `loading` flag, the signed-in user, the roles
    a route group admits and the path anonymous visitors are sent to. */
module Guard {
  import opened Wrappers
  import opened Text
  import opened Session

  datatype Outcome = Loading | Redirect(path: String) | Allow

  /** The default of the `redirectPath` prop. */
  const DefaultRedirect: String := "/login"

  /** `allowedRoles.some(r => role.toLowerCase() === r.toLowerCase())`. */
  function SomeRoleMatches(role: String, allowed: seq<String>): (b: bool)
    ensures b <==> exists i :: 0 <= i < |allowed| && SameIgnoringCase(role, allowed[i])
  {
    if allowed == [] then false
    else SameIgnoringCase(role, allowed[0]) || SomeRoleMatches(role, allowed[1..])
  }

  /** `hasAllowedRole`: an empty list admits every signed-in user. */
  function HasAllowedRole(role: String, allowed: seq<String>): bool {
    |allowed| == 0 || SomeRoleMatches(role, allowed)
  }

  /** `rolePath`: where a signed-in user the group refuses is sent, chosen
      by the lower-cased role: a page under the role's own `/<role>/`
      prefix for the three known roles, and `/` for any other role. */
  function RoleFallback(role: String): (path: String)
    ensures var r := Lower(role);
      if r == "admin" || r == "manager" || r == "employee"
      then |path| > |r| + 2 && path[..|r| + 2] == "/" + r + "/"
      else path == "/"
  {
    var r := Lower(role);
    if r == "admin" then "/admin/software"
    else if r == "manager" then "/manager/dashboard"
    else if r == "employee" then "/employee/dashboard"
    else "/"
  }

  /** A one-role group admits exactly the roles equal to it up to case. */
  lemma SingleRoleGroup(role: String, r: String)
    ensures HasAllowedRole(role, [r]) <==> Lower(role) == Lower(r)
  {
    assert [r][0] == r;
  }

  /** The three role names the client knows are already lower case. */
  lemma RoleNamesLowerCase()
    ensures Lower("admin") == "admin" && Lower("manager") == "manager" && Lower("employee") == "employee"
  {
    LowerOfLowerCase("admin");
    LowerOfLowerCase("manager");
    LowerOfLowerCase("employee");
  }

  /** The guard's decision. */
  function Decide(loading: bool, user: Option<User>, allowedRoles: seq<String>, redirectPath: String): (o: Outcome)
    ensures loading ==> o == Loading
    ensures !loading && user.None? ==> o == Redirect(redirectPath)
    ensures !loading && user.Some? ==>
      (o == Allow <==>
        |allowedRoles| == 0 ||
        exists i :: 0 <= i < |allowedRoles| && Lower(user.value.role) == Lower(allowedRoles[i]))
    ensures !loading && user.Some? && o != Allow ==>
      var r := Lower(user.value.role);
      && (r == "admin" ==> o == Redirect("/admin/software"))
      && (r == "manager" ==> o == Redirect("/manager/dashboard"))
      && (r == "employee" ==> o == Redirect("/employee/dashboard"))
      && (r != "admin" && r != "manager" && r != "employee" ==> o == Redirect("/"))
  {
    if loading then Loading
    else if user.None? then Redirect(redirectPath)
    else if HasAllowedRole(user.value.role, allowedRoles) then Allow
    else Redirect(RoleFallback(user.value.role))
  }

  /** With the default `redirectPath`, a signed-in user is never sent to the
      login page: refusals go to a role page or to `/`. */
  lemma SignedInNeverSentToLogin(user: User, allowedRoles: seq<String>)
    ensures Decide(false, Some(user), allowedRoles, DefaultRedirect) != Redirect(DefaultRedirect)
  {
  }

  /** The guard's answer depends on the user only through the lower-cased
      role: two users whose roles differ only in case are treated alike. */
  lemma DecisionIgnoresRoleCase(loading: bool, a: User, b: User, allowedRoles: seq<String>, redirectPath: String)
    requires Lower(a.role) == Lower(b.role)
    ensures Decide(loading, Some(a), allowedRoles, redirectPath) == Decide(loading, Some(b), allowedRoles, redirectPath)
  {
  }

  /** A signed-in user at a group guarded by the single lower-case role
      `r` is let in exactly when the role lower-cases to `r`, and otherwise
      sent to the role's fallback page. */
  lemma DecideOneRole(user: User, r: String, redirectPath: String)
    requires Lower(r) == r
    ensures Decide(false, Some(user), [r], redirectPath) ==
      if Lower(user.role) == r then Allow else Redirect(RoleFallback(user.role))
  {
    SingleRoleGroup(user.role, r);
  }
}

=== FILE: layout.dfy ===
/** The shell around every signed-in page, `src/layouts/MainLayout.jsx`:
    the side menu chosen by role, the active-link test and the logout
    button. */
module Layout {
  import opened Wrappers
  import opened Text
  import opened Session

  datatype Link = Link(to: String, title: String)

  const AdminLinks: seq<Link> := [
    Link("/admin/dashboard", "Dashboard"),
    Link("/admin/requests", "All Requests"),
    Link("/admin/software", "Software"),
    Link("/admin/users", "Users")
  ]

  const ManagerLinks: seq<Link> := [
    Link("/manager/dashboard", "Dashboard"),
    Link("/manager/requests", "Team Requests")
  ]

  const EmployeeLinks: seq<Link> := [
    Link("/employee/dashboard", "Dashboard"),
    Link("/employee/requests/new", "New Request"),
    Link("/employee/requests", "My Requests")
  ]

  /** `getNavLinks`: the role is compared exactly, so any role other than
      `admin` or `manager`, whatever its case, gets the employee menu. */
  function NavLinks(user: Option<User>): (links: seq<Link>)
    ensures user.None? ==> links == []
    ensures user.Some? && user.value.role == "admin" ==> links == AdminLinks
    ensures user.Some? && user.value.role == "manager" ==> links == ManagerLinks
    ensures user.Some? && user.value.role != "admin" && user.value.role != "manager" ==> links == EmployeeLinks
  {
    if user.None? then []
    else if user.value.role == "admin" then AdminLinks
    else if user.value.role == "manager" then ManagerLinks
    else EmployeeLinks
  }

  /** A link is highlighted when the current path is exactly its target. */
  predicate IsActive(pathname: String, link: Link) {
    pathname == link.to
  }

  /** Whatever the user and the path, at most one menu entry is highlighted. */
  lemma AtMostOneActive(user: Option<User>, pathname: String)
    ensures forall i, j :: 0 <= i < j < |NavLinks(user)| ==>
      !(IsActive(pathname, NavLinks(user)[i]) && IsActive(pathname, NavLinks(user)[j]))
  {
  }

  /** `handleLogout`: log out, then navigate to the login page again. */
  function HandleLogout(s: AuthState): (t: AuthState)
    ensures t == Logout(s)
  {
    Logout(s).(navigatedTo := Some(LoginPath))
  }

  /** After the logout button the menu is empty. */
  lemma MenuEmptyAfterLogout(s: AuthState)
    ensures NavLinks(HandleLogout(s).user) == []
  {
  }
}

=== FILE: navigation.dfy ===
/** How the guard, the route table, the login landing rule and the side
    menu fit together for a signed-in user once the store has finished
    loading. */
module Navigation {
  import opened Wrappers
  import opened Text
  import opened Session
  import opened Routes
  import Guard
  import Layout

  /** The page a signed-in user sees after the store has loaded. */
  function SeenBy(u: User, path: String): View {
    Visit(path, false, Some(u))
  }

  /** A role the guard recognises once lower-cased. */
  predicate KnownRole(role: String) {
    Lower(role) == "admin" || Lower(role) == "manager" || Lower(role) == "employee"
  }

  /** Visiting a literal path of the table with the store loaded: what its
      route's access rule decides for `u`. */
  lemma VisitOwnRoute(k: nat, u: User)
    requires k < |Table| && Table[k].pattern.Exact?
    ensures Table[k].access.Public? ==> SeenBy(u, Table[k].pattern.path) == Page
    ensures Table[k].access.Forward? ==> SeenBy(u, Table[k].pattern.path) == Navigate(Table[k].access.target)
    ensures Table[k].access.Guarded? ==>
      (SeenBy(u, Table[k].pattern.path) == Page <==> Guard.HasAllowedRole(u.role, Table[k].access.allowedRoles))
    ensures Table[k].access.Guarded? && !Guard.HasAllowedRole(u.role, Table[k].access.allowedRoles) ==>
      SeenBy(u, Table[k].pattern.path) == Navigate(Guard.RoleFallback(u.role))
  {
    ResolvesToOwnRoute(k);
  }

  /** Each known role's fallback is a literal page of that role's own
      group, and it admits the user. */
  lemma FallbackAdmits(u: User)
    requires KnownRole(u.role)
    ensures Resolve(Guard.RoleFallback(u.role)).Some?
    ensures Table[Resolve(Guard.RoleFallback(u.role)).value].access == Guarded([Lower(u.role)])
    ensures SeenBy(u, Guard.RoleFallback(u.role)) == Page
  {
    Guard.RoleNamesLowerCase();
    var r := Lower(u.role);
    var k := if r == "admin" then AdminSoftwareRoute
      else if r == "manager" then ManagerDashboardRoute
      else EmployeeDashboardRoute;
    ResolvesToOwnRoute(k);
    GroupPage(u, k, r);
  }

  /** `/` forwards to the login page, which renders for everyone. */
  lemma HomeLeadsToLogin(u: User)
    ensures SeenBy(u, "/") == Navigate("/login")
    ensures SeenBy(u, "/login") == Page
  {
    VisitOwnRoute(HomeRoute, u);
    VisitOwnRoute(LoginRoute, u);
  }

  /** A user the guard turns away is sent to a page that admits them: for
      a known role the role's own page, otherwise `/`, which forwards to
      the public login page. No refusal leads to another refusal. */
  lemma RefusalsSettle(u: User, path: String)
    ensures SeenBy(u, path).Navigate? ==>
      var q := SeenBy(u, path).to;
      SeenBy(u, q) == Page ||
      (SeenBy(u, q) == Navigate("/login") && SeenBy(u, "/login") == Page)
    ensures SeenBy(u, path).Navigate? && KnownRole(u.role) && path != "/" ==>
      SeenBy(u, SeenBy(u, path).to) == Page
  {
    HomeLeadsToLogin(u);
    RedirectTarget(u, path);
    if KnownRole(u.role) {
      FallbackAdmits(u);
    }
  }

  /** A page of a one-role group admits exactly the users whose role equals
      that role up to case, and sends every other signed-in user to their
      role's fallback page. */
  lemma GroupPage(u: User, k: nat, role: String)
    requires k < |Table| && Table[k].pattern.Exact? && Table[k].access == Guarded([role])
    requires Lower(role) == role
    ensures SeenBy(u, Table[k].pattern.path) ==
      if Lower(u.role) == role then Page else Navigate(Guard.RoleFallback(u.role))
  {
    VisitOwnRoute(k, u);
    Guard.DecideOneRole(u, role, Guard.DefaultRedirect);
  }

  /** The landing page `login` picks admits the new user exactly when the
      role is `admin` or `manager` verbatim, or `employee` in any case: the
      landing rule compares exactly while the guard ignores case. */
  lemma LandingAdmitsIff(u: User)
    ensures SeenBy(u, LandingPath(u.role)) == Page <==>
      u.role == "admin" || u.role == "manager" || Lower(u.role) == "employee"
  {
    Guard.RoleNamesLowerCase();
    if u.role == "admin" {
      GroupPage(u, AdminDashboardRoute, "admin");
    } else if u.role == "manager" {
      GroupPage(u, ManagerDashboardRoute, "manager");
    } else {
      GroupPage(u, EmployeeDashboardRoute, "employee");
    }
  }

  /** Each exact role name lands on a literal page of that role's own
      group. */
  lemma LandingInOwnGroup(role: String)
    requires role == "admin" || role == "manager" || role == "employee"
    ensures Resolve(LandingPath(role)).Some?
    ensures Table[Resolve(LandingPath(role)).value].access == Guarded([role])
  {
    var k := if role == "admin" then AdminDashboardRoute
      else if role == "manager" then ManagerDashboardRoute
      else EmployeeDashboardRoute;
    ResolvesToOwnRoute(k);
  }

  lemma LowerCapitalisedAdmin()
    ensures Lower("Admin") == "admin"
  {
  }

  /** A role claim of `Admin` lands on the employee dashboard, which the
      guard refuses by sending the user to the admin software page, which
      admits them. */
  lemma CapitalisedAdminLanding(u: User)
    requires u.role == "Admin"
    ensures LandingPath(u.role) == "/employee/dashboard"
    ensures SeenBy(u, "/employee/dashboard") == Navigate("/admin/software")
    ensures SeenBy(u, "/admin/software") == Page
  {
    LowerCapitalisedAdmin();
    Guard.RoleNamesLowerCase();
    GroupPage(u, EmployeeDashboardRoute, "employee");
    GroupPage(u, AdminSoftwareRoute, "admin");
  }

  /** An admin logs in to `/admin/dashboard` but is sent to `/admin/software`
      when refused elsewhere: two different pages, both open to admins. */
  lemma AdminLandingDiffersFromFallback(u: User)
    requires u.role == "admin"
    ensures LandingPath(u.role) != Guard.RoleFallback(u.role)
    ensures SeenBy(u, LandingPath(u.role)) == Page
    ensures SeenBy(u, Guard.RoleFallback(u.role)) == Page
  {
    Guard.RoleNamesLowerCase();
    GroupPage(u, AdminDashboardRoute, "admin");
    GroupPage(u, AdminSoftwareRoute, "admin");
  }

  /** A user whose role lower-cases to `employee` is refused by every page
      of the manager group and sent to the employee dashboard, not to the
      login page. */
  lemma EmployeeRefusedByManagerPages(u: User, path: String)
    requires Lower(u.role) == "employee"
    requires Resolve(path).Some? && Table[Resolve(path).value].access == Guarded(Manager)
    ensures SeenBy(u, path) == Navigate("/employee/dashboard")
  {
    Guard.RoleNamesLowerCase();
    Guard.DecideOneRole(u, "manager", Guard.DefaultRedirect);
  }

  /** Whether every entry of `u`'s side menu opens for `u`. */
  predicate MenuOpens(u: User) {
    forall i :: 0 <= i < |Layout.NavLinks(Some(u))| ==> SeenBy(u, Layout.NavLinks(Some(u))[i].to) == Page
  }

  /** Whether every entry of `u`'s side menu is refused to `u`. */
  predicate MenuRefused(u: User) {
    forall i :: 0 <= i < |Layout.NavLinks(Some(u))| ==> SeenBy(u, Layout.NavLinks(Some(u))[i].to).Navigate?
  }

  /** Every entry of `user`'s side menu resolves to a page guarded by
      exactly `[role]`. */
  predicate MenuInGroup(user: User, role: String) {
    forall i :: 0 <= i < |Layout.NavLinks(Some(user))| ==>
      Resolve(Layout.NavLinks(Some(user))[i].to).Some? &&
      Table[Resolve(Layout.NavLinks(Some(user))[i].to).value].access == Guarded([role])
  }

  /** A menu whose entries are, one by one, literal pages `at` of the table
      guarded by `[role]` lies in that role's group. */
  lemma MenuAt(u: User, at: seq<nat>, role: String)
    requires |at| == |Layout.NavLinks(Some(u))|
    requires forall i :: 0 <= i < |at| ==>
      at[i] < |Table| && Table[at[i]].pattern == Exact(Layout.NavLinks(Some(u))[i].to) &&
      Table[at[i]].access == Guarded([role])
    ensures MenuInGroup(u, role)
  {
    var links := Layout.NavLinks(Some(u));
    forall i | 0 <= i < |links| ensures Resolve(links[i].to) == Some(at[i]) {
      ResolvesToOwnRoute(at[i]);
    }
  }

  /** Each menu is made of its own role's pages: the admin, manager and
      employee menus list only pages guarded by exactly that role. */
  lemma MenusFollowGroups(u: User)
    ensures u.role == "admin" ==> MenuInGroup(u, "admin")
    ensures u.role == "manager" ==> MenuInGroup(u, "manager")
    ensures u.role != "admin" && u.role != "manager" ==> MenuInGroup(u, "employee")
  {
    if u.role == "admin" {
      MenuAt(u, [AdminDashboardRoute, AdminRequestsRoute, AdminSoftwareRoute, AdminUsersRoute], "admin");
    } else if u.role == "manager" {
      MenuAt(u, [ManagerDashboardRoute, ManagerRequestsRoute], "manager");
    } else {
      MenuAt(u, [EmployeeDashboardRoute, NewRequestRoute, EmployeeRequestsRoute], "employee");
    }
  }

  /** A menu laid out on pages `at` of the group of `role` opens for a user
      of that role and is refused to everyone else. */
  lemma MenuAtOpensIff(u: User, at: seq<nat>, role: String)
    requires |at| == |Layout.NavLinks(Some(u))|
    requires forall i :: 0 <= i < |at| ==>
      at[i] < |Table| && Table[at[i]].pattern == Exact(Layout.NavLinks(Some(u))[i].to) &&
      Table[at[i]].access == Guarded([role])
    requires Lower(role) == role
    ensures Lower(u.role) == role ==> MenuOpens(u)
    ensures Lower(u.role) != role ==> MenuRefused(u)
  {
    var links := Layout.NavLinks(Some(u));
    if Lower(u.role) == role {
      forall i | 0 <= i < |links| ensures SeenBy(u, links[i].to) == Page {
        GroupPage(u, at[i], role);
      }
    } else {
      forall i | 0 <= i < |links| ensures SeenBy(u, links[i].to).Navigate? {
        GroupPage(u, at[i], role);
      }
    }
  }

  /** The admin menu: each entry is an admin-group page. */
  lemma AdminMenuOpens(u: User)
    requires u.role == "admin"
    ensures MenuOpens(u)
  {
    Guard.RoleNamesLowerCase();
    MenuAtOpensIff(u, [AdminDashboardRoute, AdminRequestsRoute, AdminSoftwareRoute, AdminUsersRoute], "admin");
  }

  /** The manager menu: each entry is a manager-group page. */
  lemma ManagerMenuOpens(u: User)
    requires u.role == "manager"
    ensures MenuOpens(u)
  {
    Guard.RoleNamesLowerCase();
    MenuAtOpensIff(u, [ManagerDashboardRoute, ManagerRequestsRoute], "manager");
  }

  /** The employee menu, shown to every other role: its entries open
      exactly for a role that lower-cases to `employee`, and are refused to
      every other role. */
  lemma EmployeeMenu(u: User)
    requires u.role != "admin" && u.role != "manager"
    ensures Lower(u.role) == "employee" ==> MenuOpens(u)
    ensures Lower(u.role) != "employee" ==> MenuRefused(u)
  {
    Guard.RoleNamesLowerCase();
    MenuAtOpensIff(u, [EmployeeDashboardRoute, NewRequestRoute, EmployeeRequestsRoute], "employee");
  }

  /** The side menu opens entirely for `u` exactly when the role is `admin`
      or `manager` verbatim or `employee` in any case; for every other role
      (`Admin`, `MANAGER`, an unknown role) every entry is refused. */
  lemma MenuOpensIff(u: User)
    ensures MenuOpens(u) <==> u.role == "admin" || u.role == "manager" || Lower(u.role) == "employee"
    ensures !MenuOpens(u) ==> MenuRefused(u)
  {
    if u.role == "admin" {
      AdminMenuOpens(u);
    } else if u.role == "manager" {
      ManagerMenuOpens(u);
    } else {
      EmployeeMenu(u);
      if Lower(u.role) != "employee" {
        assert SeenBy(u, Layout.NavLinks(Some(u))[0].to).Navigate?;
      }
    }
  }
}

=== FILE: new_request.dfy ===
/** The employee's request form, `src/pages/employee/NewRequestPage.jsx`:
    the validation rules, the offered access types and the submit. */
module NewRequest {
  import opened Wrappers
  import opened Text
  import SoftwareForm

  datatype Draft = Draft(softwareId: String, accessType: String, reason: String)

  /** One message per field that fails validation. */
  datatype Errors = Errors(softwareId: Option<String>, accessType: Option<String>, reason: Option<String>)

  const NoErrors: Errors := Errors(None, None, None)

  const Initial: Draft := Draft("", "", "")

  /** The shortest reason accepted. */
  const MinReason: nat := 10

  /** The radio values, in order. */
  const AccessTypes: seq<String> := ["READ", "WRITE", "ADMIN"]

  /** The validation schema: each field required (an empty string counts
      as missing), and a present reason at least 10 characters long. Only
      the first failing rule of a field reports. */
  function Validate(d: Draft): (e: Errors)
    ensures e.softwareId == (if d.softwareId == [] then Some("Software selection is required") else None)
    ensures e.accessType == (if d.accessType == [] then Some("Access type is required") else None)
    ensures d.reason == [] ==> e.reason == Some("Reason is required")
    ensures 0 < |d.reason| < 10 ==> e.reason == Some("Reason must be at least 10 characters")
    ensures |d.reason| >= 10 ==> e.reason.None?
  {
    Errors(if Truthy(d.softwareId) then None else Some("Software selection is required"),
           if Truthy(d.accessType) then None else Some("Access type is required"),
           if !Truthy(d.reason) then Some("Reason is required")
           else if |d.reason| < MinReason then Some("Reason must be at least 10 characters")
           else None)
  }

  predicate Valid(d: Draft) {
    Validate(d) == NoErrors
  }

  /** The form is accepted exactly when a software and an access type are
      chosen and the reason has at least 10 characters. */
  lemma ValidIff(d: Draft)
    ensures Valid(d) <==> d.softwareId != [] && d.accessType != [] && |d.reason| >= 10
  {
  }

  /** The all-empty initial values fail on every field. */
  lemma InitialInvalid()
    ensures Validate(Initial) ==
      Errors(Some("Software selection is required"), Some("Access type is required"), Some("Reason is required"))
  {
  }

  /** The access types offered here are the catalogue's levels in upper
      case: equal ignoring case, never equal exactly. */
  lemma AccessTypesDifferFromCatalogueInCase()
    ensures |AccessTypes| == |SoftwareForm.Options|
    ensures forall i :: 0 <= i < |AccessTypes| ==>
      Lower(AccessTypes[i]) == Lower(SoftwareForm.Options[i]) && AccessTypes[i] != SoftwareForm.Options[i]
  {
    forall i | 0 <= i < |AccessTypes|
      ensures Lower(AccessTypes[i]) == Lower(SoftwareForm.Options[i])
    {
      SameLetters(AccessTypes[i], SoftwareForm.Options[i]);
    }
  }

  /** Two strings whose letters agree after lower-casing lower-case alike. */
  lemma SameLetters(a: String, b: String)
    requires |a| == |b|
    requires forall j :: 0 <= j < |a| ==> LowerChar(a[j]) == LowerChar(b[j])
    ensures Lower(a) == Lower(b)
  {
  }

  /** The page's submit state. */
  datatype SubmitState = SubmitState(error: Option<String>, submitLoading: bool, navigatedTo: Option<String>)

  /** A submit of `d`: invalid drafts are never sent; `serverOk` is the
      outcome of the create call. A failure re-enables the button; a
      success leaves it disabled and goes to the request list. */
  function Submit(s: SubmitState, d: Draft, serverOk: bool): (t: SubmitState)
    ensures !Valid(d) ==> t == s
    ensures Valid(d) && serverOk ==> t == s.(submitLoading := true, navigatedTo := Some("/employee/requests"))
    ensures Valid(d) && !serverOk ==>
      t.error == Some("Failed to submit request. Please try again.") && !t.submitLoading && t.navigatedTo == s.navigatedTo
  {
    if !Valid(d) then s
    else if serverOk then s.(submitLoading := true, navigatedTo := Some("/employee/requests"))
    else s.(error := Some("Failed to submit request. Please try again."), submitLoading := false)
  }
}

=== FILE: request_detail.dfy ===
/** The manager's view of one request,
    `src/pages/manager/ManagerRequestDetailPage.jsx`: the decision footer on
    a pending request, the decision block on a decided one, the status
    update, and the trigger and confirm button of the action dialog,
    `src/components/manager/RequestActionDialog.jsx`. */
module RequestDetail {
  import opened Wrappers
  import opened Text
  import opened Requests
  import RequestsPage

  /** The page's state once the request has loaded. `leaveTo` is the
      navigation scheduled after a successful update. */
  datatype DetailState = DetailState(
    request: Request,
    error: Option<String>,
    success: Option<String>,
    dialogOpen: bool,
    actionType: Option<String>,
    submitting: bool,
    leaveTo: Option<String>)

  /** The footer with the comment box and the two decision buttons. */
  predicate FooterShown(r: Request) {
    r.status == PendingStatus
  }

  /** The block showing the manager's comments and who decided. */
  predicate DecisionShown(r: Request) {
    r.status != PendingStatus
  }

  /** Exactly one of the two sections is on screen. */
  lemma OneSectionShown(r: Request)
    ensures FooterShown(r) != DecisionShown(r)
  {
  }

  /** The decisions the footer offers: Reject and Approve, only while it is
      shown. */
  function FooterActions(r: Request): (actions: seq<String>)
    ensures |actions| > 0 <==> FooterShown(r)
    ensures forall a :: a in actions ==> a == "Approved" || a == "Rejected"
  {
    if FooterShown(r) then [RejectedStatus, ApprovedStatus] else []
  }

  /** `openDialog`. */
  function OpenDialog(s: DetailState, action: String): (t: DetailState)
    ensures t.actionType == Some(action) && t.dialogOpen && t.request == s.request
  {
    s.(actionType := Some(action), dialogOpen := true)
  }

  /** `handleUpdateStatus`, with `serverOk` the outcome of the update call.
      Its caller is the action dialog, so `comments` is the text of the
      dialog's own comment box. Returns the next state and the body sent. */
  function UpdateStatus(s: DetailState, requestId: String, status: String, comments: String, serverOk: bool)
    : (step: (DetailState, RequestsPage.Payload))
    ensures step.1 == RequestsPage.Payload(requestId, status, if AllWhitespace(comments) then None else Some(comments))
    ensures !step.0.submitting
    ensures step.0.actionType == s.actionType
    ensures serverOk ==>
      && step.0.request.status == status
      && step.0.request.comments == (if AllWhitespace(comments) then s.request.comments else Some(comments))
      && step.0.request.(status := s.request.status, comments := s.request.comments) == s.request
      && step.0.success == Some("Request successfully " + Lower(status) + ".")
      && !step.0.dialogOpen
      && step.0.leaveTo == Some("/manager/requests")
      && step.0.error == s.error
    ensures !serverOk ==>
      && step.0.request == s.request
      && step.0.error == Some("Failed to " + Lower(status) + " request. Please try again.")
      && step.0.success == s.success
      && step.0.dialogOpen == s.dialogOpen
      && step.0.leaveTo == s.leaveTo
  {
    var payload := RequestsPage.Payload(requestId, status, RequestsPage.CommentsPayload(comments));
    if serverOk then
      var kept := RequestsPage.CommentsPayload(comments);
      (s.(success := Some("Request successfully " + Lower(status) + "."),
          request := s.request.(status := status, comments := if kept.Some? then kept else s.request.comments),
          dialogOpen := false,
          leaveTo := Some("/manager/requests"),
          submitting := false),
       payload)
    else
      (s.(error := Some("Failed to " + Lower(status) + " request. Please try again."), submitting := false),
       payload)
  }

  /** A decision taken from the footer's own buttons and accepted by the
      server hides the footer: the footer offers no decision again. (The
      dialog's own trigger still does; see `DecidedRequestCanBeSentAgain`.) */
  lemma DecidedRequestIsLocked(s: DetailState, action: String, comments: String)
    requires action in FooterActions(s.request)
    ensures var t := UpdateStatus(OpenDialog(s, action), s.request.id, action, comments, true).0;
      !FooterShown(t.request) && DecisionShown(t.request) && FooterActions(t.request) == []
  {
  }

  /** The dialog's own trigger button, which `RequestActionDialog` renders
      on every loaded request, whatever its status: it opens the dialog on
      whatever action was chosen last. */
  function TriggerDialog(s: DetailState): (t: DetailState)
    ensures t.dialogOpen
    ensures t.request == s.request && t.actionType == s.actionType && t.leaveTo == s.leaveTo
  {
    s.(dialogOpen := true)
  }

  /** The dialog's confirm button: `handleUpdateStatus` with the page's
      `requestId`, the chosen action and the dialog's own comment box, with
      no test of the request's status. `None` when no action was chosen. */
  function ConfirmDialog(s: DetailState, requestId: String, comments: String, serverOk: bool)
    : (step: Option<(DetailState, RequestsPage.Payload)>)
    ensures step.None? <==> s.actionType.None?
    ensures step.Some? ==>
      step.value.1 == RequestsPage.Payload(requestId, s.actionType.value, RequestsPage.CommentsPayload(comments))
    ensures step.Some? && serverOk ==> step.value.0.request.status == s.actionType.value
  {
    match s.actionType
    case None => None
    case Some(action) => Some(UpdateStatus(s, requestId, action, comments, serverOk))
  }

  /** After a footer decision succeeds, the footer is gone, but the dialog's
      trigger reopens the dialog on the same action, and confirming sends
      the same decision for the same request a second time. */
  lemma DecidedRequestCanBeSentAgain(s: DetailState, action: String, comments: String, again: String, serverOk: bool)
    requires action in FooterActions(s.request)
    ensures var t := UpdateStatus(OpenDialog(s, action), s.request.id, action, comments, true).0;
      && !FooterShown(t.request)
      && ConfirmDialog(TriggerDialog(t), s.request.id, again, serverOk).Some?
      && ConfirmDialog(TriggerDialog(t), s.request.id, again, serverOk).value.1 ==
           RequestsPage.Payload(s.request.id, action, RequestsPage.CommentsPayload(again))
  {
  }
}

=== FILE: request_list.dfy ===
/** The card list of `src/components/manager/RequestList.jsx`: the empty
    message, the shortened reason, the status class and the "Updated by"
    line. */
module RequestList {
  import opened Wrappers
  import opened Text
  import opened Requests

  const PendingClass: String := "bg-yellow-100 text-yellow-800 hover:bg-yellow-200"
  const ApprovedClass: String := "bg-green-100 text-green-800 hover:bg-green-200"
  const RejectedClass: String := "bg-red-100 text-red-800 hover:bg-red-200"

  /** The fallback of the `emptyMessage` prop. */
  const NoRequests: String := "No requests found."

  /** The longest reason shown in full. */
  const ReasonLimit: nat := 60

  /** `getStatusBadgeClass(status)`: a class for `pending`, `approved` and
      `rejected` in any case; `''` for anything else or a missing status. */
  function StatusClass(status: Option<String>): (cls: String)
    ensures cls != [] <==> status.Some? && Lower(status.value) in {"pending", "approved", "rejected"}
    ensures status.Some? && Lower(status.value) == "pending" ==> cls == PendingClass
    ensures status.Some? && Lower(status.value) == "approved" ==> cls == ApprovedClass
    ensures status.Some? && Lower(status.value) == "rejected" ==> cls == RejectedClass
  {
    if status.None? then ""
    else
      var s := Lower(status.value);
      if s == "pending" then PendingClass
      else if s == "approved" then ApprovedClass
      else if s == "rejected" then RejectedClass
      else ""
  }

  /** The class depends on the status only through its lower-cased form. */
  lemma StatusClassIgnoresCase(a: String, b: String)
    requires Lower(a) == Lower(b)
    ensures StatusClass(Some(a)) == StatusClass(Some(b))
  {
  }

  /** The three statuses get three different classes. */
  lemma StatusClassesDistinct()
    ensures PendingClass != ApprovedClass && ApprovedClass != RejectedClass && PendingClass != RejectedClass
  {
  }

  /** "Updated by" appears on a request not exactly `Pending` that names an
      actor. */
  predicate UpdatedByShown(r: Request) {
    r.status != PendingStatus && r.updatedBy.Some?
  }

  /** One card. */
  datatype Card = Card(heading: String, reason: String, statusClass: String, updatedBy: Option<String>)

  /** What the list shows: the empty card, or one card per request. */
  datatype ListView = EmptyCard(message: String) | Cards(cards: seq<Card>)

  function CardOf(r: Request): (c: Card)
    ensures |c.reason| <= ReasonLimit + 3
    ensures c.reason == Truncate(r.reason, ReasonLimit)
    ensures r.reason.Some? && |r.reason.value| <= ReasonLimit ==> c.reason == r.reason.value
    ensures r.reason.Some? && |r.reason.value| > ReasonLimit ==> c.reason == r.reason.value[..ReasonLimit] + "..."
    ensures c.updatedBy.Some? <==> UpdatedByShown(r)
    ensures c.updatedBy.Some? ==> c.updatedBy.value == r.updatedBy.value.username
    ensures c.statusClass == StatusClass(Some(r.status))
  {
    Card((if r.requester.Some? && Truthy(r.requester.value) then r.requester.value else "Unknown User") + " - " +
         (if r.software.Some? && Truthy(r.software.value) then r.software.value else "Unknown Software"),
         Truncate(r.reason, ReasonLimit),
         StatusClass(Some(r.status)),
         if UpdatedByShown(r) then Some(r.updatedBy.value.username) else None)
  }

  /** The list for `requests` (missing when the prop is absent). */
  function View(requests: Option<seq<Request>>, emptyMessage: Option<String>): (v: ListView)
    ensures requests == Some([]) ==>
      v == EmptyCard(if emptyMessage.Some? && emptyMessage.value != [] then emptyMessage.value else "No requests found.")
    ensures requests.None? ==> v == Cards([])
    ensures requests.Some? && requests.value != [] ==>
      v.Cards? && |v.cards| == |requests.value| &&
      forall i :: 0 <= i < |v.cards| ==> v.cards[i] == CardOf(requests.value[i])
  {
    match requests
    case None => Cards([])
    case Some(rs) =>
      if |rs| == 0 then EmptyCard(if emptyMessage.Some? && Truthy(emptyMessage.value) then emptyMessage.value else NoRequests)
      else Cards(seq(|rs|, i requires 0 <= i < |rs| => CardOf(rs[i])))
  }
}

=== FILE: requests.dfy ===
/** Access requests as the manager pages hold them, the case-insensitive
    status filter, and the local update that records a decision on one
    request id. */
module Requests {
  import opened Wrappers
  import opened Text

  /** The `updatedBy` object the list shows. */
  datatype Actor = Actor(username: String)

  /** An access request as the server sends it. `status` is free text
      (`Pending`, `Approved`, `Rejected` in practice); the optional fields
      may be missing from the JSON. Ids are kept in their printed form. */
  datatype Request = Request(
    id: String,
    requester: Option<String>,
    software: Option<String>,
    accessType: String,
    reason: Option<String>,
    status: String,
    comments: Option<String>,
    updatedBy: Option<Actor>,
    createdAt: String)

  const PendingStatus: String := "Pending"
  const ApprovedStatus: String := "Approved"
  const RejectedStatus: String := "Rejected"

  /** The filter value that shows every request. */
  const AllFilter: String := "all"

  /** The actor the list page records locally after a decision. */
  const CurrentUser: Actor := Actor("Current User")

  predicate HasStatus(r: Request, f: String) {
    Lower(r.status) == Lower(f)
  }

  /** The requests whose status equals `f` up to case, in their order. */
  function WithStatus(rs: seq<Request>, f: String): (out: seq<Request>)
    ensures |out| <= |rs|
    ensures forall r :: r in out <==> r in rs && HasStatus(r, f)
    ensures forall i :: 0 <= i < |out| ==> HasStatus(out[i], f)
  {
    if rs == [] then []
    else (if HasStatus(rs[0], f) then [rs[0]] else []) + WithStatus(rs[1..], f)
  }

  /** Filtering distributes over concatenation; with the singleton case
      this pins the result down as the order-preserving selection. */
  lemma {:induction false} WithStatusAppend(a: seq<Request>, b: seq<Request>, f: String)
    ensures WithStatus(a + b, f) == WithStatus(a, f) + WithStatus(b, f)
  {
    if a == [] {
      assert a + b == b;
    } else {
      assert (a + b)[1..] == a[1..] + b;
      WithStatusAppend(a[1..], b, f);
    }
  }

  /** Nothing is dropped when every request matches. */
  lemma {:induction false} WithStatusKeepsMatching(rs: seq<Request>, f: String)
    requires forall i :: 0 <= i < |rs| ==> HasStatus(rs[i], f)
    ensures WithStatus(rs, f) == rs
  {
    if rs != [] {
      WithStatusKeepsMatching(rs[1..], f);
    }
  }

  /** `filteredRequests`: `all` (exactly) shows the list unchanged; any
      other value keeps, in order, the requests whose status matches it
      ignoring case. */
  function Filtered(rs: seq<Request>, filter: String): (out: seq<Request>)
    ensures filter == AllFilter ==> out == rs
    ensures filter != AllFilter ==> forall r :: r in out <==> r in rs && Lower(r.status) == Lower(filter)
    ensures filter != AllFilter ==> forall i :: 0 <= i < |out| ==> Lower(out[i].status) == Lower(filter)
    ensures |out| <= |rs|
  {
    if filter == AllFilter then rs else WithStatus(rs, filter)
  }

  /** Filtering twice by the same value is filtering once. */
  lemma FilteredIdempotent(rs: seq<Request>, filter: String)
    ensures Filtered(Filtered(rs, filter), filter) == Filtered(rs, filter)
  {
    if filter != AllFilter {
      WithStatusKeepsMatching(WithStatus(rs, filter), filter);
    }
  }

  /** A request with the decision recorded locally. */
  function Decided(r: Request, action: String): Request {
    r.(status := action, updatedBy := Some(CurrentUser))
  }

  /** The local update after a confirmed decision: every request carrying
      the id gets the new status and the placeholder actor; nothing else
      changes. */
  function ApplyDecision(rs: seq<Request>, id: String, action: String): (out: seq<Request>)
    ensures |out| == |rs|
    ensures forall i :: 0 <= i < |rs| && rs[i].id != id ==> out[i] == rs[i]
    ensures forall i :: 0 <= i < |rs| && rs[i].id == id ==>
      out[i].status == action && out[i].updatedBy == Some(Actor("Current User")) &&
      out[i].(status := rs[i].status, updatedBy := rs[i].updatedBy) == rs[i]
  {
    if rs == [] then []
    else [if rs[0].id == id then Decided(rs[0], action) else rs[0]] + ApplyDecision(rs[1..], id, action)
  }

  /** An id that no request carries leaves the list as it was. */
  lemma ApplyDecisionAbsentId(rs: seq<Request>, id: String, action: String)
    requires forall i :: 0 <= i < |rs| ==> rs[i].id != id
    ensures ApplyDecision(rs, id, action) == rs
  {
  }

  /** Recording the same decision twice is recording it once. */
  lemma ApplyDecisionIdempotent(rs: seq<Request>, id: String, action: String)
    ensures ApplyDecision(ApplyDecision(rs, id, action), id, action) == ApplyDecision(rs, id, action)
  {
  }

  /** After a decision whose status is not `pending` in any case, the
      decided request is no longer among the pending ones, and the pending
      list does not grow. */
  lemma {:induction false} DecisionLeavesPending(rs: seq<Request>, id: String, action: String)
    requires Lower(action) != "pending"
    ensures forall r :: r in WithStatus(ApplyDecision(rs, id, action), "pending") ==> r.id != id
    ensures |WithStatus(ApplyDecision(rs, id, action), "pending")| <= |WithStatus(rs, "pending")|
  {
    if rs != [] {
      var out := ApplyDecision(rs, id, action);
      DecisionLeavesPending(rs[1..], id, action);
      assert out[1..] == ApplyDecision(rs[1..], id, action);
      assert rs[0].id == id ==> !HasStatus(out[0], "pending") by {
        LowerOfLowerCase("pending");
      }
    }
  }

  /** The reason as a list row shows it: at most `limit` characters, then
      `...` when the reason was longer; nothing when it is missing. */
  function Truncate(reason: Option<String>, limit: nat): (shown: String)
    ensures reason.None? ==> shown == []
    ensures reason.Some? && |reason.value| <= limit ==> shown == reason.value
    ensures reason.Some? && |reason.value| > limit ==>
      |shown| == limit + 3 && shown[..limit] == reason.value[..limit] && shown[limit..] == "..."
    ensures |shown| <= limit + 3
  {
    match reason
    case None => []
    case Some(r) => if |r| > limit then r[..limit] + "..." else r
  }
}

=== FILE: requests_page.dfy ===
/** The manager's request table, `src/pages/manager/ManagerRequestsPage.jsx`:
    the status filter, the per-row Approve/Reject controls, and the
    confirmation that sends a decision and records it locally. */
module RequestsPage {
  import opened Wrappers
  import opened Text
  import opened Requests

  /** The body of the update call. `comments` is absent (`undefined`) when
      the typed comment is blank. */
  datatype Payload = Payload(requestId: String, status: String, comments: Option<String>)

  /** The page's state once the list has loaded. `selected` and
      `actionType` are what the last row button chose. */
  datatype PageState = PageState(
    requests: seq<Request>,
    filter: String,
    error: Option<String>,
    success: Option<String>,
    dialogOpen: bool,
    selected: Option<Request>,
    actionType: Option<String>,
    comments: String,
    submitting: bool)

  /** What confirming did: the next state and the update call made, if any. */
  datatype Confirmation = Confirmation(state: PageState, sent: Option<Payload>)

  /** `queryParams.get('filter') || 'all'`. */
  function InitialFilter(query: Option<String>): (f: String)
    ensures query.Some? && query.value != [] ==> f == query.value
    ensures query.None? || query.value == [] ==> f == "all"
  {
    if query.Some? && Truthy(query.value) then query.value else AllFilter
  }

  /** `comments.trim() ? comments : undefined`: the untrimmed text, or
      nothing when it is blank. */
  function CommentsPayload(comments: String): (c: Option<String>)
    ensures c.None? <==> AllWhitespace(comments)
    ensures c.Some? ==> c.value == comments
  {
    TrimEmptyIffWhitespace(comments);
    if Blank(comments) then None else Some(comments)
  }

  /** The decisions a row offers: Approve and Reject on a row whose status
      is exactly `Pending`, nothing otherwise. */
  function RowActions(r: Request): (actions: seq<String>)
    ensures |actions| > 0 <==> r.status == "Pending"
    ensures forall a :: a in actions ==> a == "Approved" || a == "Rejected"
  {
    if r.status == PendingStatus then [ApprovedStatus, RejectedStatus] else []
  }

  /** `handleAction`: remember the row and the decision, open the dialog. */
  function HandleAction(s: PageState, r: Request, action: String): (t: PageState)
    ensures t.selected == Some(r) && t.actionType == Some(action) && t.dialogOpen
    ensures t.requests == s.requests && t.comments == s.comments
  {
    s.(selected := Some(r), actionType := Some(action), dialogOpen := true)
  }

  /** A present, non-empty action with a selected row. */
  predicate Armed(s: PageState) {
    s.selected.Some? && s.actionType.Some? && Truthy(s.actionType.value)
  }

  /** `handleConfirmAction`, with `serverOk` the outcome of the update
      call. */
  function ConfirmAction(s: PageState, serverOk: bool): (c: Confirmation)
    ensures !Armed(s) ==> c == Confirmation(s, None)
    ensures Armed(s) ==>
      c.sent == Some(Payload(s.selected.value.id, s.actionType.value,
                             if AllWhitespace(s.comments) then None else Some(s.comments)))
    ensures Armed(s) ==> !c.state.submitting && c.state.filter == s.filter
    ensures Armed(s) ==> c.state.selected == s.selected && c.state.actionType == s.actionType
    ensures Armed(s) && serverOk ==>
      var id := s.selected.value.id;
      var action := s.actionType.value;
      && c.state.requests == ApplyDecision(s.requests, id, action)
      && c.state.success == Some("Request #" + id + " has been " + Lower(action) + ".")
      && !c.state.dialogOpen
      && c.state.comments == []
      && c.state.error == s.error
    ensures Armed(s) && !serverOk ==>
      && c.state.requests == s.requests
      && c.state.error == Some("Failed to " + Lower(s.actionType.value) + " request. Please try again.")
      && c.state.dialogOpen == s.dialogOpen
      && c.state.comments == s.comments
      && c.state.success == s.success
  {
    if !Armed(s) then Confirmation(s, None)
    else
      var id := s.selected.value.id;
      var action := s.actionType.value;
      var payload := Payload(id, action, CommentsPayload(s.comments));
      if serverOk then
        Confirmation(
          s.(requests := ApplyDecision(s.requests, id, action),
             success := Some("Request #" + id + " has been " + Lower(action) + "."),
             dialogOpen := false,
             comments := "",
             submitting := false),
          Some(payload))
      else
        Confirmation(
          s.(error := Some("Failed to " + Lower(action) + " request. Please try again."),
             submitting := false),
          Some(payload))
  }

  /** A decision taken from a row's own buttons and accepted by the server
      removes the buttons from every row with that id: a request cannot be
      decided twice from this table. */
  lemma {:induction false} DecidedRowsLoseActions(s: PageState, r: Request, action: String)
    requires action in RowActions(r)
    ensures var t := ConfirmAction(HandleAction(s, r, action), true).state;
      forall i :: 0 <= i < |t.requests| && t.requests[i].id == r.id ==> RowActions(t.requests[i]) == []
  {
  }

  /** The message of an empty table: the filter word, or nothing for `all`
      (which leaves two spaces). */
  function EmptyText(filter: String): (msg: String)
    ensures filter == AllFilter ==> msg == "No  requests found."
    ensures filter != AllFilter ==> msg == "No " + filter + " requests found."
  {
    "No " + (if filter != AllFilter then filter else "") + " requests found."
  }

  /** One table row: the shortened reason, the decision buttons on a
      `Pending` row, and "Updated by" on any other row. */
  datatype Row = Row(reason: String, actions: seq<String>, updatedBy: Option<String>)

  /** What the page shows: the error panel once an error is set, otherwise
      the filtered table or its empty message. */
  datatype Screen = ErrorPanel(message: String) | Empty(message: String) | Table(rows: seq<Row>)

  function RowOf(r: Request): (row: Row)
    ensures row.reason == Truncate(r.reason, 50)
    ensures |row.reason| <= 53
    ensures row.actions == RowActions(r)
    ensures row.actions != [] <==> r.status == "Pending"
    ensures (row.actions == []) <==> row.updatedBy.Some?
    ensures row.updatedBy.Some? ==>
      row.updatedBy.value == if r.updatedBy.Some? && r.updatedBy.value.username != [] then r.updatedBy.value.username else "Unknown"
  {
    Row(Truncate(r.reason, 50),
        RowActions(r),
        if r.status == PendingStatus then None
        else Some(if r.updatedBy.Some? && Truthy(r.updatedBy.value.username) then r.updatedBy.value.username else "Unknown"))
  }

  function Render(s: PageState): (screen: Screen)
    ensures s.error.Some? ==> screen == ErrorPanel(s.error.value)
    ensures s.error.None? && Filtered(s.requests, s.filter) == [] ==> screen == Empty(EmptyText(s.filter))
    ensures s.error.None? && Filtered(s.requests, s.filter) != [] ==>
      screen.Table? &&
      |screen.rows| == |Filtered(s.requests, s.filter)| &&
      forall i :: 0 <= i < |screen.rows| ==> screen.rows[i] == RowOf(Filtered(s.requests, s.filter)[i])
  {
    if s.error.Some? then ErrorPanel(s.error.value)
    else
      var shown := Filtered(s.requests, s.filter);
      if shown == [] then Empty(EmptyText(s.filter))
      else Table(seq(|shown|, i requires 0 <= i < |shown| => RowOf(shown[i])))
  }

  /** A confirmed decision never grows the table the page shows under the
      filter `pending` (the view the dashboard's link opens), and once the
      server accepts it, the decided request leaves that view. */
  lemma ConfirmShrinksPendingView(s: PageState, serverOk: bool)
    requires Armed(s) ==> Lower(s.actionType.value) != "pending"
    ensures |Filtered(ConfirmAction(s, serverOk).state.requests, "pending")| <= |Filtered(s.requests, "pending")|
    ensures Armed(s) && serverOk ==>
      forall r :: r in Filtered(ConfirmAction(s, serverOk).state.requests, "pending") ==> r.id != s.selected.value.id
  {
    if Armed(s) && serverOk {
      DecisionLeavesPending(s.requests, s.selected.value.id, s.actionType.value);
    }
  }
}

=== FILE: routes.dfy ===
/** The route table of `src/App.jsx`: two public pages, the `/` redirect,
    and three groups of pages each wrapped in a guard for one role. */
module Routes {
  import opened Wrappers
  import opened Text
  import opened Session
  import Guard

  /** A path pattern: a literal path, or a literal prefix followed by one
      `/:id` parameter segment. */
  datatype Pattern = Exact(path: String) | WithId(prefix: String)

  /** What a route does: render a page to anyone, send the visitor on to
      another path, or render a page behind a guard for the listed roles. */
  datatype Access = Public | Forward(target: String) | Guarded(allowedRoles: seq<String>)

  datatype Route = Route(pattern: Pattern, access: Access)

  /** What a visit to a path ends in. */
  datatype View = NotFound | Waiting | Page | Navigate(to: String)

  const Employee: seq<String> := ["employee"]
  const Manager: seq<String> := ["manager"]
  const Admin: seq<String> := ["admin"]

  /** The `<Routes>` of `App`, in declaration order. */
  const Table: seq<Route> := [
    Route(Exact("/login"), Public),
    Route(Exact("/register"), Public),
    Route(Exact("/"), Forward("/login")),
    Route(Exact("/employee/dashboard"), Guarded(Employee)),
    Route(Exact("/employee/requests"), Guarded(Employee)),
    Route(Exact("/employee/requests/new"), Guarded(Employee)),
    Route(WithId("/employee/requests"), Guarded(Employee)),
    Route(Exact("/manager/dashboard"), Guarded(Manager)),
    Route(Exact("/manager/requests"), Guarded(Manager)),
    Route(WithId("/manager/requests"), Guarded(Manager)),
    Route(Exact("/admin/dashboard"), Guarded(Admin)),
    Route(Exact("/admin/requests"), Guarded(Admin)),
    Route(Exact("/admin/software"), Guarded(Admin)),
    Route(Exact("/admin/users"), Guarded(Admin))
  ]

  /** Positions in `Table` of the literal routes the lemmas refer to. */
  const LoginRoute: nat := 0
  const RegisterRoute: nat := 1
  const HomeRoute: nat := 2
  const EmployeeDashboardRoute: nat := 3
  const EmployeeRequestsRoute: nat := 4
  const NewRequestRoute: nat := 5
  const ManagerDashboardRoute: nat := 7
  const ManagerRequestsRoute: nat := 8
  const AdminDashboardRoute: nat := 10
  const AdminRequestsRoute: nat := 11
  const AdminSoftwareRoute: nat := 12
  const AdminUsersRoute: nat := 13

  /** Each named position holds the literal route of that name. */
  lemma RouteNames()
    ensures Table[LoginRoute].pattern == Exact("/login")
    ensures Table[RegisterRoute].pattern == Exact("/register")
    ensures Table[HomeRoute].pattern == Exact("/")
    ensures Table[EmployeeDashboardRoute].pattern == Exact("/employee/dashboard")
    ensures Table[EmployeeRequestsRoute].pattern == Exact("/employee/requests")
    ensures Table[NewRequestRoute].pattern == Exact("/employee/requests/new")
    ensures Table[ManagerDashboardRoute].pattern == Exact("/manager/dashboard")
    ensures Table[ManagerRequestsRoute].pattern == Exact("/manager/requests")
    ensures Table[AdminDashboardRoute].pattern == Exact("/admin/dashboard")
    ensures Table[AdminRequestsRoute].pattern == Exact("/admin/requests")
    ensures Table[AdminSoftwareRoute].pattern == Exact("/admin/software")
    ensures Table[AdminUsersRoute].pattern == Exact("/admin/users")
  {
  }

  predicate StartsWith(s: String, prefix: String) {
    |prefix| <= |s| && s[..|prefix|] == prefix
  }

  /** The pattern as written in the source. */
  function PatternText(p: Pattern): String {
    match p
    case Exact(path) => path
    case WithId(prefix) => prefix + "/:id"
  }

  /** `prefix/<id>` for one non-empty segment `<id>` without `/`. */
  predicate MatchesWithId(prefix: String, path: String) {
    && |path| > |prefix| + 1
    && StartsWith(path, prefix)
    && path[|prefix|] == '/'
    && forall k :: |prefix| < k < |path| ==> path[k] != '/'
  }

  predicate Matches(p: Pattern, path: String) {
    match p
    case Exact(q) => q == path
    case WithId(prefix) => MatchesWithId(prefix, path)
  }

  /** The index of the first route from `from` on whose pattern is exactly
      `path`, or -1. */
  function FindExact(path: String, from: nat): (k: int)
    requires from <= |Table|
    ensures k == -1 || from <= k < |Table|
    ensures k >= 0 ==> Table[k].pattern == Exact(path)
    ensures forall i :: from <= i < |Table| && (k == -1 || i < k) ==> Table[i].pattern != Exact(path)
    decreases |Table| - from
  {
    if from == |Table| then -1
    else if Table[from].pattern == Exact(path) then from
    else FindExact(path, from + 1)
  }

  /** The index of the first route from `from` on with a parameter segment
      that `path` fills, or -1. */
  function FindWithId(path: String, from: nat): (k: int)
    requires from <= |Table|
    ensures k == -1 || from <= k < |Table|
    ensures k >= 0 ==> Table[k].pattern.WithId? && Matches(Table[k].pattern, path)
    ensures forall i :: from <= i < |Table| && (k == -1 || i < k) ==>
      !(Table[i].pattern.WithId? && Matches(Table[i].pattern, path))
    decreases |Table| - from
  {
    if from == |Table| then -1
    else if Table[from].pattern.WithId? && Matches(Table[from].pattern, path) then from
    else FindWithId(path, from + 1)
  }

  /** The index of the route the router picks for `path`: a literal match
      ranks above a parameter match, and between two candidates of the same
      kind the earlier one wins. */
  function Resolve(path: String): (r: Option<nat>)
    ensures r.Some? ==> r.value < |Table| && Matches(Table[r.value].pattern, path)
    ensures r.Some? && Table[r.value].pattern.WithId? ==>
      forall i :: 0 <= i < |Table| ==> Table[i].pattern != Exact(path)
    ensures r.None? ==> forall i :: 0 <= i < |Table| ==> !Matches(Table[i].pattern, path)
  {
    var k := FindExact(path, 0);
    if k >= 0 then Some(k)
    else
      var j := FindWithId(path, 0);
      if j >= 0 then Some(j) else None
  }

  /** Visiting `path` with the store in the given state; every guard in the
      table uses the default `redirectPath`. */
  function Visit(path: String, loading: bool, user: Option<User>): (v: View)
    ensures Resolve(path).None? ==> v == NotFound
    ensures Resolve(path).Some? ==>
      var access := Table[Resolve(path).value].access;
      && (access.Public? ==> v == Page)
      && (access.Forward? ==> v == Navigate(access.target))
      && (access.Guarded? && loading ==> v == Waiting)
      && (access.Guarded? && !loading && user.None? ==> v == Navigate("/login"))
      && (access.Guarded? && !loading && user.Some? ==>
            (v == Page <==> Guard.HasAllowedRole(user.value.role, access.allowedRoles)) &&
            (v != Page ==> v == Navigate(Guard.RoleFallback(user.value.role))))
  {
    match Resolve(path)
    case None => NotFound
    case Some(k) =>
      match Table[k].access
      case Public => Page
      case Forward(target) => Navigate(target)
      case Guarded(roles) =>
        match Guard.Decide(loading, user, roles, Guard.DefaultRedirect)
        case Loading => Waiting
        case Redirect(to) => Navigate(to)
        case Allow => Page
  }

  /** `/` forwards to the login page, and the login and registration pages
      are public: whatever the store holds, they render. */
  lemma PublicEntryPoints(loading: bool, user: Option<User>)
    ensures Resolve("/") == Some(HomeRoute) && Table[HomeRoute] == Route(Exact("/"), Forward("/login"))
    ensures Visit("/", loading, user) == Navigate("/login")
    ensures Visit("/login", loading, user) == Page
    ensures Visit("/register", loading, user) == Page
  {
    VisitLiteral(LoginRoute, loading, user);
    VisitLiteral(RegisterRoute, loading, user);
    VisitLiteral(HomeRoute, loading, user);
  }

  /** A literal path of the table, visited in any state of the store, is
      handled by its own route's access rule. */
  lemma VisitLiteral(k: nat, loading: bool, user: Option<User>)
    requires k < |Table| && Table[k].pattern.Exact?
    ensures Resolve(Table[k].pattern.path) == Some(k)
    ensures Table[k].access.Public? ==> Visit(Table[k].pattern.path, loading, user) == Page
    ensures Table[k].access.Forward? ==> Visit(Table[k].pattern.path, loading, user) == Navigate(Table[k].access.target)
  {
    ResolvesToOwnRoute(k);
  }

  /** No two routes share a pattern. */
  lemma PatternsDistinct()
    ensures forall i, j :: 0 <= i < j < |Table| ==> Table[i].pattern != Table[j].pattern
  {
  }

  /** A literal path of the table resolves to its own route. */
  lemma ResolvesToOwnRoute(k: nat)
    requires k < |Table| && Table[k].pattern.Exact?
    ensures Resolve(Table[k].pattern.path) == Some(k)
  {
    PatternsDistinct();
  }

  /** Where a visit by a signed-in user can send them: `/` forwards to the
      login page, and a guard refusal goes to the role's fallback page. */
  lemma RedirectTarget(u: User, path: String)
    ensures Visit(path, false, Some(u)).Navigate? ==>
      (path == "/" && Visit(path, false, Some(u)).to == "/login") ||
      Visit(path, false, Some(u)).to == Guard.RoleFallback(u.role)
  {
    var res := Resolve(path);
    if res.Some? && Table[res.value].access.Forward? {
      ForwardOnlyAtRoot();
    }
  }

  /** The only forwarding route is `/`. */
  lemma ForwardOnlyAtRoot()
    ensures forall i :: 0 <= i < |Table| && Table[i].access.Forward? ==>
      Table[i] == Route(Exact("/"), Forward("/login"))
  {
  }

  /** The routes under `/employee/` are exactly those guarded by
      `['employee']`. */
  lemma EmployeeGroup()
    ensures forall i :: 0 <= i < |Table| ==>
      (StartsWith(PatternText(Table[i].pattern), "/employee/") <==> Table[i].access == Guarded(Employee))
  {
    forall i | 0 <= i < |Table|
      ensures StartsWith(PatternText(Table[i].pattern), "/employee/") <==> Table[i].access == Guarded(Employee)
    {
      var text := PatternText(Table[i].pattern);
      if i < 3 {
        assert |text| < 10;
      } else if i < 7 {
        assert text[..10] == "/employee/";
      } else if i < 10 {
        assert text[1] == 'm';
      } else {
        assert text[1] == 'a';
      }
    }
  }

  /** The routes under `/manager/` are exactly those guarded by
      `['manager']`. */
  lemma ManagerGroup()
    ensures forall i :: 0 <= i < |Table| ==>
      (StartsWith(PatternText(Table[i].pattern), "/manager/") <==> Table[i].access == Guarded(Manager))
  {
    forall i | 0 <= i < |Table|
      ensures StartsWith(PatternText(Table[i].pattern), "/manager/") <==> Table[i].access == Guarded(Manager)
    {
      var text := PatternText(Table[i].pattern);
      if i < 3 {
        assert |text| < 9 || text[1] == 'r';
      } else if i < 7 {
        assert text[1] == 'e';
      } else if i < 10 {
        assert text[..9] == "/manager/";
      } else {
        assert text[1] == 'a';
      }
    }
  }

  /** The routes under `/admin/` are exactly those guarded by `['admin']`. */
  lemma AdminGroup()
    ensures forall i :: 0 <= i < |Table| ==>
      (StartsWith(PatternText(Table[i].pattern), "/admin/") <==> Table[i].access == Guarded(Admin))
  {
    forall i | 0 <= i < |Table|
      ensures StartsWith(PatternText(Table[i].pattern), "/admin/") <==> Table[i].access == Guarded(Admin)
    {
      var text := PatternText(Table[i].pattern);
      if i < 3 {
        assert |text| < 7 || text[1] == 'r';
      } else if i < 7 {
        assert text[1] == 'e';
      } else if i < 10 {
        assert text[1] == 'm';
      } else {
        assert text[..7] == "/admin/";
      }
    }
  }

  /** Every guarded route admits exactly one role, and its pattern lies
      under `/<role>/`. */
  lemma GuardedRoutesSitUnderTheirRole()
    ensures forall i :: 0 <= i < |Table| && Table[i].access.Guarded? ==>
      |Table[i].access.allowedRoles| == 1 &&
      StartsWith(PatternText(Table[i].pattern), "/" + Table[i].access.allowedRoles[0] + "/")
  {
    EmployeeGroup();
    ManagerGroup();
    AdminGroup();
    assert "/" + "employee" + "/" == "/employee/";
    assert "/" + "manager" + "/" == "/manager/";
    assert "/" + "admin" + "/" == "/admin/";
    forall i | 0 <= i < |Table| && Table[i].access.Guarded?
      ensures Table[i].access in {Guarded(Employee), Guarded(Manager), Guarded(Admin)}
    {
    }
  }
}

=== FILE: session.dfy ===
/** The session store of `src/contexts/AuthContext.jsx`: a token kept in
    browser storage, the user decoded from it, the `loading` flag the route
    guard waits on, and the last path the store navigated to.

    Token decoding is an abstract partial function (`Decoder`); the clock is
    the `now` parameter, in seconds like `Date.now() / 1000`. */
module Session {
  import opened Wrappers
  import opened Text

  /** The identity the store keeps: three claims copied out of the token. */
  datatype User = User(id: String, username: String, role: String)

  /** What decoding a token yields. `exp` is absent when the token carries no
      expiry claim; `rest` holds every other claim. */
  datatype Claims = Claims(id: String, username: String, role: String, exp: Option<real>, rest: map<String, String>)

  /** `jwtDecode`: `None` where the library throws. */
  type Decoder = String -> Option<Claims>

  /** The store's state. `storedToken` is the `token` entry of local
      storage; `navigatedTo` is the target of the last `navigate` call. */
  datatype AuthState = AuthState(storedToken: Option<String>, user: Option<User>, loading: bool, navigatedTo: Option<String>)

  /** The server's answer to a login attempt: a token, or a refusal carrying
      `error.response.data.message` when the response had one. */
  datatype AuthReply = Issued(token: String) | Refused(message: Option<String>)

  /** The value `login` resolves to. */
  datatype LoginResult = LoginResult(success: bool, error: Option<String>)

  const LoginPath: String := "/login"
  const LoginFailed: String := "Login failed"

  /** The state before the restore effect has run: nothing decoded yet and
      the guard kept waiting. */
  function Boot(stored: Option<String>): AuthState {
    AuthState(stored, None, true, None)
  }

  function UserOf(c: Claims): User {
    User(c.id, c.username, c.role)
  }

  /** `decodedToken.exp < currentTime`: a strict comparison, and false when
      the claim is missing (`undefined < x` is false in JavaScript). */
  predicate Expired(c: Claims, now: real) {
    c.exp.Some? && c.exp.value < now
  }

  /** A stored token the restore effect acts on: present and not `''`. */
  predicate HasToken(s: AuthState) {
    s.storedToken.Some? && Truthy(s.storedToken.value)
  }

  /** `logout`: forget the token and the user, then go to the login page. */
  function Logout(s: AuthState): (t: AuthState)
    ensures t.storedToken.None? && t.user.None?
    ensures t.navigatedTo == Some(LoginPath)
    ensures t.loading == s.loading
  {
    s.(storedToken := None, user := None, navigatedTo := Some(LoginPath))
  }

  /** Logging out twice leaves the same state as logging out once. */
  lemma LogoutIdempotent(s: AuthState)
    ensures Logout(Logout(s)) == Logout(s)
  {
  }

  /** The mount effect: read the stored token; an undecodable or expired
      one logs out, a valid one sets the user; `loading` ends in every case. */
  function Restore(s: AuthState, decode: Decoder, now: real): (t: AuthState)
    ensures !t.loading
    ensures !HasToken(s) ==> t == s.(loading := false)
    ensures HasToken(s) && decode(s.storedToken.value).None? ==>
      t == AuthState(None, None, false, Some(LoginPath))
    ensures HasToken(s) && decode(s.storedToken.value).Some? ==>
      var c := decode(s.storedToken.value).value;
      if c.exp.Some? && c.exp.value < now then t == AuthState(None, None, false, Some(LoginPath))
      else t == AuthState(s.storedToken, Some(User(c.id, c.username, c.role)), false, s.navigatedTo)
    ensures t.user.Some? <==>
      (if HasToken(s) then decode(s.storedToken.value).Some? && !Expired(decode(s.storedToken.value).value, now)
       else s.user.Some?)
  {
    if !HasToken(s) then s.(loading := false)
    else
      match decode(s.storedToken.value)
      case None => Logout(s).(loading := false)
      case Some(c) =>
        if Expired(c, now) then Logout(s).(loading := false)
        else s.(user := Some(UserOf(c)), loading := false)
  }

  /** Where a successful login goes: an exact, case-sensitive test of the
      role claim, so only `admin` and `manager` leave the employee default. */
  function LandingPath(role: String): (path: String)
    ensures role == "admin" ==> path == "/admin/dashboard"
    ensures role == "manager" ==> path == "/manager/dashboard"
    ensures role != "admin" && role != "manager" ==> path == "/employee/dashboard"
  {
    if role == "admin" then "/admin/dashboard"
    else if role == "manager" then "/manager/dashboard"
    else "/employee/dashboard"
  }

  /** The failure message: the server's, unless absent or empty. */
  function FailureMessage(message: Option<String>): String {
    if message.Some? && Truthy(message.value) then message.value else LoginFailed
  }

  /** `login`: the token is stored before it is decoded, so a token that
      fails to decode stays stored while the attempt reports failure. */
  function Login(s: AuthState, reply: AuthReply, decode: Decoder): (step: (AuthState, LoginResult))
    ensures !step.0.loading
    ensures reply.Refused? ==>
      step.0 == s.(loading := false) &&
      step.1 == LoginResult(false, Some(if reply.message.Some? && reply.message.value != [] then reply.message.value else "Login failed"))
    ensures reply.Issued? ==> step.0.storedToken == Some(reply.token)
    ensures reply.Issued? && decode(reply.token).None? ==>
      step.0 == s.(storedToken := Some(reply.token), loading := false) &&
      step.1 == LoginResult(false, Some("Login failed"))
    ensures reply.Issued? && decode(reply.token).Some? ==>
      var c := decode(reply.token).value;
      step.1 == LoginResult(true, None) &&
      step.0.user == Some(User(c.id, c.username, c.role)) &&
      step.0.navigatedTo == Some(LandingPath(c.role))
    ensures step.1.success <==> reply.Issued? && decode(reply.token).Some?
  {
    match reply
    case Refused(m) => (s.(loading := false), LoginResult(false, Some(FailureMessage(m))))
    case Issued(tok) =>
      var stored := s.(storedToken := Some(tok));
      match decode(tok)
      case None => (stored.(loading := false), LoginResult(false, Some(FailureMessage(None))))
      case Some(c) =>
        (stored.(user := Some(UserOf(c)), navigatedTo := Some(LandingPath(c.role)), loading := false),
         LoginResult(true, None))
  }

  /** Reloading the page after a successful login restores the same user,
      as long as the token is non-empty and not yet expired. */
  lemma ReloadAfterLoginRestoresUser(s: AuthState, tok: String, decode: Decoder, now: real)
    requires decode(tok).Some? && !Expired(decode(tok).value, now) && tok != []
    ensures Restore(Boot(Login(s, Issued(tok), decode).0.storedToken), decode, now).user
         == Login(s, Issued(tok), decode).0.user
  {
  }

  /** Reloading the page after a logout starts signed out. */
  lemma ReloadAfterLogoutIsSignedOut(s: AuthState, decode: Decoder, now: real)
    ensures Restore(Boot(Logout(s).storedToken), decode, now).user.None?
  {
  }
}

=== FILE: software_form.dfy ===
/** The admin's "add software" form, `src/components/admin/AddSoftwareForm.jsx`:
    the schema, the defaults, the access-level checkboxes and the submit
    error. */
module SoftwareForm {
  import opened Wrappers
  import opened Text

  datatype Draft = Draft(name: String, description: String, accessLevels: seq<String>)

  /** One message per field that fails the schema. */
  datatype Errors = Errors(name: Option<String>, description: Option<String>, accessLevels: Option<String>)

  const NoErrors: Errors := Errors(None, None, None)

  /** The checkbox values offered, in order. */
  const Options: seq<String> := ["Read", "Write", "Admin"]

  const Defaults: Draft := Draft("", "", ["Read"])

  const SubmitFallback: String := "Failed to add software. Please try again."

  /** `formSchema`: each string at least one character long, at least one
      access level. A name of spaces passes. */
  function Validate(d: Draft): (e: Errors)
    ensures e.name.Some? <==> d.name == []
    ensures e.description.Some? <==> d.description == []
    ensures e.accessLevels.Some? <==> d.accessLevels == []
    ensures e.name.Some? ==> e.name.value == "Name is required"
    ensures e.description.Some? ==> e.description.value == "Description is required"
    ensures e.accessLevels.Some? ==> e.accessLevels.value == "At least one access level is required"
  {
    Errors(if |d.name| < 1 then Some("Name is required") else None,
           if |d.description| < 1 then Some("Description is required") else None,
           if |d.accessLevels| < 1 then Some("At least one access level is required") else None)
  }

  predicate Valid(d: Draft) {
    Validate(d) == NoErrors
  }

  /** The form is accepted exactly when name and description are non-empty
      and at least one level is checked. */
  lemma ValidIff(d: Draft)
    ensures Valid(d) <==> d.name != [] && d.description != [] && |d.accessLevels| >= 1
  {
  }

  /** The defaults fail only on the two empty text fields. */
  lemma DefaultsNeedText()
    ensures Validate(Defaults) == Errors(Some("Name is required"), Some("Description is required"), None)
  {
  }

  /** `indexOf`: the first position of `v`, or -1. */
  function IndexOf(xs: seq<String>, v: String): (k: int)
    ensures -1 <= k < |xs|
    ensures k == -1 <==> v !in xs
    ensures k >= 0 ==> xs[k] == v && forall j :: 0 <= j < k ==> xs[j] != v
  {
    if xs == [] then -1
    else if xs[0] == v then 0
    else
      var k := IndexOf(xs[1..], v);
      if k == -1 then -1 else k + 1
  }

  /** `onCheckedChange(checked)` for the option `v`: checking appends,
      unchecking drops the first occurrence (if any). */
  function Toggle(levels: seq<String>, v: String, checked: bool): (out: seq<String>)
    ensures checked ==> out == levels + [v]
    ensures !checked && v !in levels ==> out == levels
    ensures !checked && v in levels ==>
      |out| == |levels| - 1 &&
      multiset(out) == multiset(levels) - multiset{v} &&
      exists k :: 0 <= k < |levels| && levels[k] == v && v !in levels[..k] && out == levels[..k] + levels[k + 1..]
  {
    if checked then levels + [v]
    else
      var k := IndexOf(levels, v);
      if k == -1 then levels
      else
        assert levels == levels[..k] + [v] + levels[k + 1..];
        levels[..k] + levels[k + 1..]
  }

  /** Checking an unchecked option and unchecking it again restores the
      list exactly. */
  lemma CheckThenUncheck(levels: seq<String>, v: String)
    requires v !in levels
    ensures Toggle(Toggle(levels, v, true), v, false) == levels
  {
    var grown := levels + [v];
    assert IndexOf(grown, v) == |levels| by {
      assert grown[|levels|] == v;
      assert forall j :: 0 <= j < |levels| ==> grown[j] == levels[j];
    }
    assert grown[..|levels|] == levels;
  }

  /** A click on option `v`: the box shows `includes(v)`, and a click flips
      it. */
  function Click(levels: seq<String>, v: String): seq<String> {
    Toggle(levels, v, v !in levels)
  }

  /** Clicks on the offered options keep the list duplicate-free and within
      the offered values. */
  lemma ClickKeepsLevelsClean(levels: seq<String>, v: String)
    requires v in Options
    requires forall i :: 0 <= i < |levels| ==> levels[i] in Options
    requires forall i, j :: 0 <= i < j < |levels| ==> levels[i] != levels[j]
    ensures forall i :: 0 <= i < |Click(levels, v)| ==> Click(levels, v)[i] in Options
    ensures forall i, j :: 0 <= i < j < |Click(levels, v)| ==> Click(levels, v)[i] != Click(levels, v)[j]
  {
    var out := Click(levels, v);
    if v in levels {
      var k :| 0 <= k < |levels| && levels[k] == v && v !in levels[..k] && out == levels[..k] + levels[k + 1..];
      forall i | 0 <= i < |out| ensures out[i] == levels[if i < k then i else i + 1] {
        if i < k {
          assert out[i] == levels[..k][i];
        } else {
          assert out[i] == levels[k + 1..][i - k];
        }
      }
    } else {
      assert out == levels + [v];
    }
  }

  /** Unchecking an option of a duplicate-free list leaves no copy of it. */
  lemma UncheckRemoves(levels: seq<String>, v: String)
    requires forall i, j :: 0 <= i < j < |levels| ==> levels[i] != levels[j]
    ensures v !in Toggle(levels, v, false)
  {
    var out := Toggle(levels, v, false);
    if v in levels {
      var k :| 0 <= k < |levels| && levels[k] == v && v !in levels[..k] && out == levels[..k] + levels[k + 1..];
      forall i | 0 <= i < |out| ensures out[i] != v {
        if i < k {
          assert out[i] == levels[..k][i] == levels[i] != levels[k];
        } else {
          assert out[i] == levels[k + 1..][i - k] == levels[i + 1] != levels[k];
        }
      }
    }
  }

  /** Two clicks on the same box of a duplicate-free list: an unchecked
      option comes back unchecked with the list as it was; a checked one
      is dropped and appended again, so it stays checked with the same
      levels but moves to the end of the list. */
  lemma ClickTwice(levels: seq<String>, v: String)
    requires forall i, j :: 0 <= i < j < |levels| ==> levels[i] != levels[j]
    ensures v !in levels ==> Click(Click(levels, v), v) == levels
    ensures v in levels ==>
      v !in Click(levels, v) &&
      Click(Click(levels, v), v) == Click(levels, v) + [v] &&
      multiset(Click(Click(levels, v), v)) == multiset(levels)
  {
    if v !in levels {
      CheckThenUncheck(levels, v);
    } else {
      var mid := Click(levels, v);
      UncheckRemoves(levels, v);
      assert multiset(mid + [v]) == multiset(mid) + multiset{v};
      assert v in multiset(levels);
    }
  }

  /** What a submit of the form ends in. */
  datatype Outcome = Blocked(errors: Errors) | Added | NotAdded(error: String)

  /** The form's submit: the schema blocks an invalid draft before any call;
      otherwise `reply` is the call's outcome, `None` on success or the
      failure with its server message, if any. */
  function Submit(d: Draft, reply: Option<Option<String>>): (o: Outcome)
    ensures !Valid(d) ==> o == Blocked(Validate(d))
    ensures Valid(d) && reply.None? ==> o == Added
    ensures Valid(d) && reply.Some? ==>
      o == NotAdded(if reply.value.Some? && reply.value.value != [] then reply.value.value
                    else "Failed to add software. Please try again.")
  {
    if !Valid(d) then Blocked(Validate(d))
    else match reply
      case None => Added
      case Some(m) => NotAdded(if m.Some? && Truthy(m.value) then m.value else SubmitFallback)
  }
}

=== FILE: text.dfy ===
/** String helpers shared by every comparison site of the client:
    `toLowerCase`, `trim` and JavaScript string truthiness. */
module Text {

  type String = seq<char>

  predicate IsUpperAscii(c: char) {
    'A' <= c <= 'Z'
  }

  /** `toLowerCase` on one character, for the ASCII letters A-Z; every other
      character is returned unchanged. */
  function LowerChar(c: char): char {
    if IsUpperAscii(c) then (c as int + 32) as char else c
  }

  /** `s.toLowerCase()`. */
  function Lower(s: String): (t: String)
    ensures |t| == |s|
    ensures forall i :: 0 <= i < |s| ==> t[i] == LowerChar(s[i])
    ensures forall i :: 0 <= i < |t| ==> !IsUpperAscii(t[i])
  {
    seq(|s|, i requires 0 <= i < |s| => LowerChar(s[i]))
  }

  /** A string that `toLowerCase` leaves alone. */
  predicate IsLowerCase(s: String) {
    forall i :: 0 <= i < |s| ==> !IsUpperAscii(s[i])
  }

  /** A string without upper-case letters is its own lower-case form. */
  lemma LowerOfLowerCase(s: String)
    requires IsLowerCase(s)
    ensures Lower(s) == s
  {
    assert forall i :: 0 <= i < |s| ==> Lower(s)[i] == s[i];
  }

  /** Lower-casing twice is lower-casing once. */
  lemma LowerIdempotent(s: String)
    ensures Lower(Lower(s)) == Lower(s)
  {
    LowerOfLowerCase(Lower(s));
  }

  /** `a.toLowerCase() === b.toLowerCase()`. */
  predicate SameIgnoringCase(a: String, b: String) {
    Lower(a) == Lower(b)
  }

  /** A JavaScript string is truthy iff it is not empty. */
  predicate Truthy(s: String) {
    |s| > 0
  }

  /** The characters `trim` removes: ECMAScript WhiteSpace and LineTerminator
      (tab, line feed, vertical tab, form feed, carriage return, space,
      no-break space, the Unicode space separators, line and paragraph
      separator, byte order mark). */
  predicate IsWhitespace(c: char) {
    var n := c as int;
    n == 0x09 || n == 0x0A || n == 0x0B || n == 0x0C || n == 0x0D ||
    n == 0x20 || n == 0xA0 || n == 0x1680 || (0x2000 <= n <= 0x200A) ||
    n == 0x2028 || n == 0x2029 || n == 0x202F || n == 0x205F ||
    n == 0x3000 || n == 0xFEFF
  }

  predicate AllWhitespace(s: String) {
    forall i :: 0 <= i < |s| ==> IsWhitespace(s[i])
  }

  /** `s` without its leading characters that satisfy `drop`: a suffix of
      `s` whose dropped characters all satisfy `drop`. */
  function DropLeading(s: String, drop: char -> bool): (t: String)
    ensures |t| <= |s|
    ensures t == s[|s| - |t|..]
    ensures forall i :: 0 <= i < |s| - |t| ==> drop(s[i])
    ensures t != [] ==> !drop(t[0])
  {
    if s == [] || !drop(s[0]) then s
    else DropLeading(s[1..], drop)
  }

  /** `s` without its trailing characters that satisfy `drop`: a prefix of
      `s` whose dropped characters all satisfy `drop`. */
  function DropTrailing(s: String, drop: char -> bool): (t: String)
    ensures |t| <= |s|
    ensures t == s[..|t|]
    ensures forall i :: |t| <= i < |s| ==> drop(s[i])
    ensures t != [] ==> !drop(t[|t| - 1])
  {
    if s == [] || !drop(s[|s| - 1]) then s
    else DropTrailing(s[..|s| - 1], drop)
  }

  /** Cutting the characters that satisfy `drop` from both ends leaves
      nothing exactly when every character satisfies `drop`. */
  lemma {:induction false} DropBothEmptyIff(s: String, drop: char -> bool)
    ensures DropTrailing(DropLeading(s, drop), drop) == [] <==> forall i :: 0 <= i < |s| ==> drop(s[i])
  {
    var a := DropLeading(s, drop);
    var b := DropTrailing(a, drop);
    if b == [] {
      forall i | 0 <= i < |s| ensures drop(s[i]) {
        if i >= |s| - |a| {
          assert s[i] == a[i - (|s| - |a|)];
        }
      }
    } else {
      assert b[0] == a[0] == s[|s| - |a|];
    }
  }

  /** `t` is the run of `s` starting at `i`, and every character of `s`
      outside that slice satisfies `drop`. */
  predicate Framed(s: String, i: int, t: String, drop: char -> bool) {
    && 0 <= i <= |s| - |t|
    && (forall j :: 0 <= j < |t| ==> t[j] == s[i + j])
    && (forall k :: 0 <= k < i ==> drop(s[k]))
    && (forall k :: i + |t| <= k < |s| ==> drop(s[k]))
  }

  /** Cutting the characters that satisfy `drop` from the front of `s`,
      giving `a`, and then from the back of `a`, giving `t`, leaves a run
      of `s` framed by characters that satisfy `drop`. */
  lemma DropBothSpan(s: String, a: String, t: String, drop: char -> bool)
    requires |a| <= |s| && a == s[|s| - |a|..] && forall k :: 0 <= k < |s| - |a| ==> drop(s[k])
    requires |t| <= |a| && t == a[..|t|] && forall k :: |t| <= k < |a| ==> drop(a[k])
    ensures Framed(s, |s| - |a|, t, drop)
  {
    DropBothInside(s, a, t);
    DropBothOutside(s, a, t, drop);
  }

  /** A prefix of a suffix of `s` is a run of `s`. */
  lemma DropBothInside(s: String, a: String, t: String)
    requires |a| <= |s| && a == s[|s| - |a|..]
    requires |t| <= |a| && t == a[..|t|]
    ensures forall j :: 0 <= j < |t| ==> t[j] == s[|s| - |a| + j]
  {
    forall j | 0 <= j < |t| ensures t[j] == s[|s| - |a| + j] {
      assert t[j] == a[j];
    }
  }

  /** What trailing cuts dropped from the suffix `a` lies after the kept
      run in `s`. */
  lemma DropBothOutside(s: String, a: String, t: String, drop: char -> bool)
    requires |a| <= |s| && a == s[|s| - |a|..]
    requires |t| <= |a| && forall k :: |t| <= k < |a| ==> drop(a[k])
    ensures forall k :: |s| - |a| + |t| <= k < |s| ==> drop(s[k])
  {
    forall k | |s| - |a| + |t| <= k < |s| ensures drop(s[k]) {
      assert s[k] == a[k - (|s| - |a|)];
    }
  }

  /** `s.trim()`: the part of `s` between a whitespace prefix and a
      whitespace suffix, chosen so that neither end of the result is
      whitespace. */
  function Trim(s: String): (t: String)
    ensures |t| <= |s|
    ensures exists i :: Framed(s, i, t, IsWhitespace)
    ensures t != [] ==> !IsWhitespace(t[0]) && !IsWhitespace(t[|t| - 1])
  {
    var a := DropLeading(s, IsWhitespace);
    var t := DropTrailing(a, IsWhitespace);
    DropBothSpan(s, a, t, IsWhitespace);
    t
  }

  /** `s.trim()` is empty exactly when every character of `s` is
      whitespace; this is the test behind every "optional comment" field. */
  lemma TrimEmptyIffWhitespace(s: String)
    ensures Trim(s) == [] <==> AllWhitespace(s)
  {
    DropBothEmptyIff(s, IsWhitespace);
  }

  /** `s.trim()` read as a boolean: false for a blank string. */
  predicate Blank(s: String) {
    Trim(s) == []
  }
}

=== FILE: wrappers.dfy ===
/** The optional value used wherever the client tests a value for being
    present (`null`, `undefined`, a missing JSON field). */
module Wrappers {

  datatype Option<+T> = None | Some(value: T)
}
